=== FILE: README.md ===
# OBS websocket client: a verified model

This project models the core of a Go client for the obs-websocket protocol in Dafny. The client talks to OBS Studio over a WebSocket: it sends requests that carry a `message-id` and matches each reply to its request by that id. It also decodes the events OBS pushes, such as scene switches and stream status, which carry an `update-type` and optional `HH:MM:SS.mmm` timecodes.

The repository holds two client implementations, and both are modelled:

- **The multiplexed client (`obs/client/ws`)**
  - Event decoding: timecodes, the generic envelope, and a six-entry registry of event types.
  - The response status check.
  - Request builders and the result logic of its API calls.
  - The dispatch loop, as a sequential state machine. Each step is one outcome of the loop's `select`: a request accepted, a frame handled, the queue closed. `Close` and the event-channel slot are steps too.
- **The generated client (`obs/ws` and `obs/obsws`, two directories that both declare `package obsws`)**
  - The message-id counter.
  - The rule routing each frame to the response path or the event path, and the polling loop.
  - The `Send` / `Receive` / `SendReceive` lifecycle that six generated request types share.

Frames are modelled as already-decoded JSON values (`Frames.Json`); no JSON parser is modelled. A struct field is read the way `encoding/json` fills it: a missing key or `null` gives the zero value, a value of the field's JSON kind gives that value, and a value of another kind is a type error. One registered struct cannot be filled that way. The scene-list reply reaches its base fields through a nil embedded pointer, and `Responses.DecodeResponse` models the error that follows (see Findings). Durations are unbounded integers counting milliseconds. `-1` means "absent", as in the source.

Modules:

| file | module | models |
|---|---|---|
| wrappers.dfy | `Wrappers` | `Option` and `Result`, standing for Go's `(value, error)` pairs |
| decimal.dfy | `Decimal` | decimal numerals: `strconv.Itoa` / `%d` rendering, strict reading |
| frames.dfy | `Frames` | decoded frames and Go's struct-field decoding rules |
| timecode.dfy | `Timecode` | `parseTC` |
| events.dfy | `Events` | `rawEvent`, the event registry, `UnmarshalEvent` |
| responses.dfy | `Responses` | `responseBase`, the scene-list reply, decoding into an expected shape as written and as intended |
| requests.dfy | `Requests` | request builders, `submitRequest`, `GetSceneList`, `SetCurrentScene` |
| multiplexer.dfy | `Multiplexer` | `handleResponse`, the loop's request branch, `Close`, `EventChannel` |
| connection.dfy | `Connection` | `getMessageID`, `poll`'s routing and stopping rule, `SetReceiveTimeout` |
| generated.dfy | `Generated` | `NewXRequest`, `Send`, `Receive`, `SendReceive` of the generated request types |

Behaviour of the code that its callers may not expect, which the model keeps:

- **Bad frames.** An unknown `message-id`, a malformed frame or a bad event timecode makes `handleResponse` panic; none of them is logged and dropped. The model ends the run with a `Panicked` effect.
- **`Close` and pending requests.** `Close` leaves pending requests unresolved. Their entries stay in the table and their callers stay blocked. `Multiplexer.Close` keeps `pending` unchanged.
- **Calling `Close` twice.** A second `Close` closes a nil channel, which panics; it is not a no-op.
- **Status comparison.** The multiplexed client ignores letter case in `status`, but the generated client compares it exactly against `StatusOK`. So `"OK"` is accepted by one client and rejected by the other (`Generated.UpperCaseOkRejected`).
- **Timecode fields.** `parseTC` reads four decimal numbers of any width, so the milliseconds field is a count: `.042` is 42 ms, and `.42` is 42 ms too.
- **Scene-list replies.** The multiplexed client panics on every reply to `GetSceneList` (see Findings).

## Model

| member | source | states |
|---|---|---|
| Decimal.Format | obs/ws/client.go:79 | the decimal rendering of `n` is a non-empty digit string without a leading zero (unless `n` is 0) whose value is `n` |
| Decimal.ParseIffPaddedFormat | obs/ws/client.go:79 | a string reads back as the counter value `n` exactly when it is the `strconv.Itoa` rendering of `n` preceded by some number of zeros |
| Decimal.ParseFormat | obs/ws/client.go:79 | reading back a rendered number gives the number |
| Decimal.FormatInjective | obs/ws/client.go:75-81 | different numbers render as different strings |
| Decimal.PadLeft | obs/client/ws/events.go:65 | padding with leading zeros to a width keeps the numeral's value |
| Timecode.ParseTC | obs/client/ws/events.go:60-71 | the result is -1 exactly when there is an error; the empty string gives the empty-string error, and any other rejected text gives the invalid-format error naming that text |
| Timecode.ParseShaped | obs/client/ws/events.go:64-70 | `H:M:S.ms` with four numerals reads as H hours + M minutes + S seconds + ms milliseconds |
| Timecode.ParseSound | obs/client/ws/events.go:65-70 | every accepted timecode has the four-numeral shape and reads as that sum |
| Timecode.ParseFormat | obs/client/ws/events.go:60-71 | any duration written as `HH:MM:SS.mmm` reads back as itself |
| Timecode.ReadsOneHour | obs/client/ws/events_test.go:20 | `"01:00:00.000"` is one hour |
| Timecode.ReadsMillisecondCount | obs/client/ws/events_test.go:23 | `"00:00:00.042"` is 42 ms: the last field counts milliseconds |
| Timecode.RejectedTimecodes | obs/client/ws/events.go:60-68 | `""` fails as empty; `"0:0"` and `"a"` fail as invalid; each returns -1 |
| Frames.ObjectMembers | obs/client/ws/events.go:99-101 | an object decodes to its members, `null` to no members, and anything else is an error |
| Frames.StringField | obs/client/ws/events.go:93-101 | a missing or null string field reads as `""`, a present string reads as itself, and a value of another kind is a type error naming the key |
| Frames.BoolField | obs/client/ws/events.go:174-177 | a missing or null bool field reads as false, a present bool reads as itself, and a value of another kind is a type error naming the key |
| Frames.IntField | obs/client/ws/events.go:178-183 | a missing or null int field reads as 0, a present number reads as itself, and a value of another kind is a type error naming the key |
| Frames.ArrayField | obs/client/ws/responses.go:40-44 | a missing or null slice field reads as empty, a present array reads as its elements, and a value of another kind is a type error naming the key |
| Events.RawEvent.StreamTimecode | obs/client/ws/events.go:34-39 | a negative stored value gives `(0, false)`, any other value `v` gives `(v, true)` |
| Events.RawEvent.RecordTimecode | obs/client/ws/events.go:41-46 | the same convention for the recording timecode |
| Events.RawEvent.CopyFromOther | obs/client/ws/events.go:48-58 | afterwards all three accessors agree with the other event's, and absence is stored as -1 |
| Events.CopyFromNormal | obs/client/ws/events.go:48-58 | copying an envelope that already uses -1 for absence reproduces it exactly |
| Events.RegistryIsExact | obs/client/ws/events.go:188-197 | the registry has six keys, every kind is registered under its own key, and every key maps to the kind carrying it |
| Events.ReadEnvelope | obs/client/ws/events.go:93-101 | a decoded envelope holds exactly the frame's `update-type`, `stream-timecode` and `rec-timecode` string fields |
| Events.DecodeTimecode | obs/client/ws/events.go:112-126 | an empty timecode field is absent; a non-empty one is read, succeeds exactly when it parses, and then is non-negative |
| Events.DecodeBody | obs/client/ws/events.go:134-140 | the decoded event is of the kind asked for, on a zero envelope, and each of its fields is what `encoding/json` puts in it from the member under the field's tag: that member's value, or the zero value when it is missing or `null` |
| Events.DecodeBodyAccepts | obs/client/ws/events.go:134-185 | a kind's fields decode exactly when every member under its tags (the struct tags of obs/client/ws/events.go:148-185) is missing, `null` or of the field's JSON kind; otherwise the error is a type mismatch naming the first tag, in `Events.BodyTags` order, whose member is not |
| Events.DecodeRegistered | obs/client/ws/events.go:129-143 | the event's kind is the registry entry, its discriminator is the key used, and its envelope is the frame's |
| Events.UnmarshalEvent | obs/client/ws/events.go:91-144 | a decoded event is well formed, was looked up under its own `update-type`, and carries it; an unknown-type error carries the frame's non-empty, unregistered type |
| Events.NotEventIff | obs/client/ws/events.go:103-105 | "not an event" is reported exactly when the envelope decodes and `update-type` is empty or missing |
| Events.DecodedTimecodes | obs/client/ws/events.go:106-126 | a decoded event's timecodes are absent for empty fields and the parsed durations otherwise |
| Events.BadTimecodeFirst | obs/client/ws/events.go:112-132 | a bad timecode fails the decode before the registry is consulted |
| Events.UnknownTypeReported | obs/client/ws/events.go:129-132 | an unregistered type with readable timecodes is reported as unknown, carrying the type |
| Events.TimecodeTextRoundTrip | obs/client/ws/events.go:112-126 | a timecode as written on the wire (absent as `""`) decodes back to itself |
| Events.BodyRoundTrip | obs/client/ws/events.go:134-140 | each kind's own fields decode back from what the server writes |
| Events.UnmarshalEncoded | obs/client/ws/events.go:91-144 | decoding any well-formed event as the server writes it gives back that event |
| Events.ResponseFrameIsNotEvent | obs/client/ws/events_test.go:72 | a response frame is not an event |
| Events.NumericUpdateTypeRejected | obs/client/ws/events_test.go:73 | a numeric `update-type` is a decoding error |
| Events.UnknownTypeExample | obs/client/ws/events_test.go:74 | `update-type` `foo` is reported as `obsws: unknown event type 'foo'` |
| Events.BadTimecodeExample | obs/client/ws/events_test.go:75 | a registered type with stream timecode `a` fails on that timecode |
| Events.StreamTimecodeExample | obs/client/ws/events_test.go:51 | a one-hour stream timecode is present and read, and the missing recording timecode is absent |
| Events.SwitchScenesFactoryExample | obs/client/ws/events_test.go:89-92 | `{"update-type":"SwitchScenes","scene-name":"foo"}` decodes to a scene switch to `foo` with both timecodes absent |
| Events.StreamStatusFactoryExample | obs/client/ws/events_test.go:93-105 | the stream-status frame of the test, which has no `recording` member, less its fractional `fps` and `strain`, decodes with `recording` false, the other fields as written and both timecodes absent |
| Events.WrongKindBodyRejected | obs/client/ws/events.go:136-139 | a stream status whose `recording` is a string is a decoding error naming `recording`, not a zero value |
| Responses.ToLower | obs/client/ws/responses.go:20 | lower-casing keeps the length and maps each character |
| Responses.ResponseBase.Err | obs/client/ws/responses.go:19-24 | no error exactly when the lower-cased status is `ok`; otherwise the text is `obsws: status:<status> error:<error>` |
| Responses.OkSpellings | obs/client/ws/responses.go:20 | the accepted statuses are exactly `ok`, `Ok`, `oK`, `OK`, and `o` or `O` followed by the Kelvin sign, which Go lower-cases to `k` |
| Responses.NonOkIsError | obs/client/ws/responses.go:20-23 | every other status, the empty one included, is an error |
| Responses.ErrorCarriesServerMessage | obs/client/ws/responses.go:23 | the error text contains the server's message verbatim |
| Responses.MessageIdIsFrameId | obs/client/ws/responses.go:26-28 | a decoded reply's id is the frame's `message-id`, unchanged |
| Responses.DecodeBase | obs/client/ws/responses.go:13-17 | the base decodes exactly when its three string fields do, and its id, status and error are the frame's |
| Responses.ParseBase | obs/client/ws/client.go:76-80 | reading a frame as a bare base is decoding its members as one |
| Responses.DecodeResponse | obs/client/ws/client.go:86-89 | as written: a bare reply decodes as intended; a scene-list frame that carries `message-id`, `status` or `error` fails on the nil embedded base pointer; any success is the intended decoding |
| Responses.DecodeResponseIntended | obs/client/ws/responses.go:40-44 | a reply decoded as the struct tags describe has the shape asked for and the base fields `ParseBase` reads |
| Responses.BaseShapeIsParseBase | obs/client/ws/requests.go:35-40 | a reply of the bare shape is exactly the parsed base |
| Responses.SourcesRoundTrip | obs/client/ws/responses.go:30-33 | any list of source objects holding at least each source's `type` (a real one also carries `volume`) decodes back to those sources |
| Responses.SceneRoundTrip | obs/client/ws/responses.go:35-38 | any scene object holding the scene's `name` and a `sources` list written for its sources decodes back to the scene, whatever other members it has |
| Responses.ScenesRoundTrip | obs/client/ws/responses.go:35-38 | any list of scene objects written for a list of scenes decodes back to that list |
| Responses.DecodeWritten | obs/client/ws/responses.go:40-44 | the intended decoder gives back the reply from any member map that contains its encoding, in the reply's own shape, whatever members the server adds |
| Responses.DecodeEncoded | obs/client/ws/responses.go:40-44 | the exact encoding of a reply decodes back, as one such member map |
| Responses.DecodeWrittenAsWritten | obs/client/ws/client.go:86-88 | as written, any bare reply the server writes decodes back, and every scene-list reply, whatever else it carries, fails on its `message-id` |
| Responses.DecodeEncodedAsWritten | obs/client/ws/client.go:86-88 | the same two outcomes for the exact encoding |
| Requests.SetMessageID | obs/client/ws/requests.go:19-21 | only the id changes |
| Requests.SetResponseChannel | obs/client/ws/requests.go:27-29 | only the response channel changes |
| Requests.ForgeRequest | obs/client/ws/requests.go:35-40 | the request has the given type, an empty message id and no response channel, and expects a bare reply |
| Requests.ForgeRequestWithExpectedResponse | obs/client/ws/requests.go:42-47 | the request records exactly the caller's expected shape |
| Requests.ForgeSetCurrentScene | obs/client/ws/requests.go:49-61 | the request has type `SetCurrentScene` and the given `scene-name` |
| Requests.Wire | obs/client/ws/requests.go:12-17 | the written object has exactly the keys `message-id`, `request-type` and, when there is a scene name, `scene-name`, each holding the request's value |
| Requests.StampChangesOnlyWireId | obs/client/ws/requests.go:19-21 | stamping an id changes the written object in `message-id` only |
| Requests.SubmitResult | obs/client/ws/requests.go:63-76 | a channel closed without a reply is the internal error; a non-ok reply is its status error; otherwise the reply itself |
| Requests.SubmitSucceedsIffOk | obs/client/ws/requests.go:72-75 | a delivered reply is returned exactly when its status spells `ok` in any case |
| Requests.GetSceneList | obs/client/ws/requests.go:78-88 | submit errors pass through, a reply of another shape is "unexpected", and success is a scene-list reply |
| Requests.SceneListShapeNeverUnexpected | obs/client/ws/requests.go:79-86 | a reply decoded into the registered scene-list shape is never "unexpected" |
| Requests.SetCurrentScene | obs/client/ws/requests.go:90-93 | the result is exactly the submit error, and the reply is discarded |
| Requests.SetCurrentSceneOutcome | obs/client/ws/requests.go:90-93 | switching scenes succeeds exactly when the reply's status spells `ok`; otherwise the caller gets the server's status and message, or the internal error when no reply came |
| Multiplexer.NewClient | obs/client/ws/client.go:42-48 | a new client is valid, runs its loop, has nothing pending and no event channel |
| Multiplexer.RequestId | obs/client/ws/client.go:123-124 | the id of the n-th request reads back as n |
| Multiplexer.Submit | obs/client/ws/client.go:117-130 | the counter moves up by one before use; the new id gets the submitter's channel and expected shape and is stamped on the request written out; after the loop ends the submitter blocks |
| Multiplexer.SubmitAddsOneEntry | obs/client/ws/client.go:123-129 | the new id was not pending, and exactly one entry is added with all others kept |
| Multiplexer.HandleResponse | obs/client/ws/client.go:52-93 | it panics exactly on an event that fails to decode (other than "not an event" or an unknown type), an unreadable reply, an id not pending, a reply that does not decode into its entry's shape, or an event for a closed channel; otherwise an event goes to the open subscriber or is dropped when there is none, an unknown type is only logged, and a reply is delivered on its entry's channel with only its entry removed; nothing else changes |
| Multiplexer.FrameArrives | obs/client/ws/client.go:114-141 | frames are handled while the loop runs and discarded after |
| Multiplexer.Close | obs/client/ws/client.go:150-160 | the loop ends, the event channel is closed only if one was created, pending entries stay, and a second `Close` panics |
| Multiplexer.EventChannel | obs/client/ws/client.go:163-184 | the existing channel is returned when there is one; otherwise a new one is installed and returned |
| Multiplexer.EventChannelIdempotent | obs/client/ws/client.go:164-168 | asking twice yields the same channel and changes nothing the second time |
| Multiplexer.ApplyPreservesValid | obs/client/ws/client.go:95-142 | every step keeps pending ids issued by the counter and the event channel open while the loop runs; only an accepted request moves the counter, by one |
| Multiplexer.SentIdsIncrease | obs/client/ws/client.go:101-124 | along any run, stamped ids read as numbers above the starting counter, strictly increasing |
| Multiplexer.SentIdsDistinct | obs/client/ws/client.go:123-124 | ids stamped at different points of a run differ |
| Multiplexer.ResponseDeliveredOnce | obs/client/ws/client.go:82-92 | a reply is delivered once; the same frame again names an id no longer pending |
| Multiplexer.UnknownIdPanics | obs/client/ws/client.go:82-85 | a readable reply whose id is not pending is a panic and changes nothing |
| Multiplexer.NothingAcceptedAfterClose | obs/client/ws/client.go:117-136 | after `Close` a submitter blocks, frames are discarded, and `Close` again panics |
| Multiplexer.ReplyIsNotEvent | obs/client/ws/client.go:54-73 | a reply as the server writes it takes the response path |
| Multiplexer.SubmitThenReply | obs/client/ws/client.go:82-92 | a bare reply to a submitted request reaches that request's channel and the pending table is as before; a scene-list reply makes the loop panic with the entry still pending |
| Multiplexer.SubmitThenUndecodable | obs/client/ws/client.go:86-88 | a reply to the request just submitted that does not decode into its registered shape makes the loop panic, with the entry still pending |
| Multiplexer.SceneListExample | obs/client/ws/requests.go:78-88 | a fresh client's scene-list request answered with current scene `Main`: as written the loop panics and the request stays pending; decoded as intended, the same frame is the reply and `GetSceneList` returns it |
| Multiplexer.SceneListNeverDelivered | obs/client/ws/client.go:82-88 | from any valid state, a reply whose pending entry expects a scene list makes the loop panic, because its `message-id` key cannot be stored |
| Multiplexer.UnsubscribedEventDropped | obs/client/ws/client.go:55-62 | an event with no subscriber is dropped without effect, and a later subscriber does not see it |
| Connection.NextMessageId | obs/ws/client.go:76-82 | the counter moves up by one and the id is the new value in decimal, without leading zeros |
| Connection.MessageIdsNeverRepeat | obs/ws/client.go:75-81 | ids drawn at different counter values differ |
| Connection.IssueMessageIds | obs/ws/client.go:75-82 | n successive ids read back as the next n counter values and are pairwise distinct |
| Connection.RouteOf | obs/ws/client.go:56-60 | a message is a response exactly when it has a `message-id` key |
| Connection.RepliesRouteToResponses | obs/ws/client.go:56-57 | every reply as the server writes it is routed as a response |
| Connection.EventsRouteToEvents | obs/ws/client.go:58-59 | every event as the server writes it is routed as an event |
| Connection.Poll | obs/ws/client.go:43-62 | each handled message is routed by its `message-id` key |
| Connection.PollHandlesReadsUntilEnd | obs/ws/client.go:45-61 | exactly the messages read before the loop ends are handled, in order; failed reads while connected are skipped |
| Connection.SetReceiveTimeout | obs/ws/client.go:71-73 | only the timeout changes |
| Generated.NewRequest | obs/obsws/requests_general.go:22-31 | a new request has the fixed type, is not sent, and takes the next id from the counter |
| Generated.ConsecutiveRequestsDiffer | obs/obsws/requests_general.go:22-31 | requests constructed one after another never share an id |
| Generated.Wire | obs/obsws/requests_general.go:212-217 | the written object carries the id, the fixed request type and the type's own parameter under its tag (`auth`, `enable` or `filename-formatting`, as at obs/obsws/requests_general.go:215, :306 and :397) with its value, and no other member |
| Generated.WireDeterminesRequest | obs/obsws/requests_general.go:212-217 | the written object determines the request's type, parameters and id |
| Generated.DecodeReply | obs/obsws/requests_general.go:44-46 | a decoded reply has the type its request expects and the base fields of the message |
| Generated.DecodeWrittenReply | obs/obsws/requests_general.go:94-109 | a reply decodes back, for the request type it answers, from any member map that contains its encoding, such as a version reply that also carries `version` |
| Generated.Resolve | obs/obsws/requests_general.go:44-52 | a decode failure is an error; a status other than `StatusOK` is an error carrying the server's message; otherwise the typed reply |
| Generated.ResolveWritten | obs/obsws/requests_general.go:46-52 | any reply the server writes resolves to itself exactly when its status is `StatusOK`, and to an error carrying its `error` otherwise |
| Generated.UpperCaseOkRejected | obs/obsws/requests_general.go:48-49 | status `OK` is an error here although the multiplexed client accepts it |
| Generated.Send | obs/obsws/requests_general.go:34-55 | an already-sent request is refused without sending; a transport error is returned with the request left unsent; otherwise the request is marked sent |
| Generated.SendOnce | obs/obsws/requests_general.go:35-42 | after a successful `Send` a second one is refused without sending |
| Generated.Receive | obs/obsws/requests_general.go:58-79 | before `Send` the only result is "not sent"; afterwards the results are the resolved reply or error, plus a timeout exactly when a deadline is set |
| Generated.ZeroTimeoutNeverExpires | obs/obsws/requests_general.go:62-68 | with timeout 0 the only result is what the reply resolves to |
| Generated.SetTimeoutGovernsReceive | obs/obsws/requests_general.go:62-77 | after the timeout is set to `t`, a sent request with no reply times out exactly when `t` is not 0, and then has no other result |
| Generated.SendReceiveAsWritten | obs/obsws/requests_general.go:82-87 | a send error is returned without receiving, otherwise the receive results; the caller's request is left unchanged |
| Generated.SendReceiveAsWrittenResends | obs/obsws/requests_general.go:82-87 | a second call sends the same id again and is never refused |
| Generated.ReceiveAfterSendReceiveAsWritten | obs/obsws/requests_general.go:82-87 | the caller's own `Receive` afterwards reports "not sent" |
| Generated.SendReceive | obs/obsws/requests_general.go:82-87 | as above, but the caller's request is the one `Send` marked |
| Generated.SendReceiveSendsOnce | obs/obsws/requests_general.go:82-87 | a second call is refused and sends nothing, and the caller's `Receive` still waits for the reply |

## Left out

- Goroutines, channels, locks and the wait group are left out. Each outcome of the dispatch loop's `select` is one step, applied in sequence. The per-iteration read goroutine (obs/client/ws/client.go:103-112) and `EventChannel`'s lock hand-off goroutine (obs/client/ws/client.go:170-183) are not modelled. The hand-off goroutine can block forever when it finds a channel already installed; the model returns that channel.
- Socket I/O is left out: `websocket.Dial`, `Message.Receive`, `JSON.Send` and `ReadJSON`. `sendRequest`'s outcome is the `transport` parameter of `Generated.Send`, and a read's outcome is an `Iteration` input of `Connection.Poll`.
- The JSON parser, `encoding/json`, `mapstructure` and `reflect.New` are left out. A frame is an already-decoded value, and an unparseable one is `Frames.Unparseable`.
- Multiplexer.HandleResponse and Events.DecodeBodyAccepts: when several fields fail to decode, the model reports the first failure in a fixed field order (for an event body, the order of `Events.BodyTags`). `encoding/json` reports the first failure in the frame's document order, so the model does not pin down which field an error names.
- Timecode.ParseTC: `fmt.Sscanf` tolerances are not modelled. Sscanf accepts leading spaces, signs and trailing text; the model reads a strict digit grammar and rejects those forms.
- Timecode.ParseTC: `time.Duration` is int64 nanoseconds and can overflow, and each `%d` field is a Go `int` that rejects values beyond 64 bits; the model uses unbounded milliseconds and reads any digit run.
- Responses.ToLower: only the ASCII capitals and the Kelvin sign are lower-cased; Go's `strings.ToLower` also folds other Unicode letters. No other letter lower-cases to `o` or `k`, so the `ok` check is unaffected.
- Frames.StringField, Frames.BoolField, Frames.IntField and Frames.ArrayField match keys exactly. `encoding/json` and `mapstructure` also accept a key that differs only in letter case (`Update-Type` fills the `update-type` field); the model does not.
- Frames.IntField: Go's `int` is 64 bits, and `encoding/json` rejects a number outside that range or with a fraction; the model's numbers are unbounded integers.
- Multiplexer.SentIdsIncrease: the loop's `requestUID` is a Go `int`, which would wrap to a negative value after 2^63 - 1 requests, so ids would then start with `-` and repeat. The model's counter is unbounded, so the lemma covers runs shorter than that.
- Multiplexer.Submit: the same unbounded counter; the wrap of `requestUID++` is not modelled.
- Multiplexer.RequestId: renders a counter value that never wraps; see above.
- Connection.NextMessageId: `messageID` is a Go `int`, and its wrap after 2^63 - 1 ids is not modelled.
- Connection.IssueMessageIds: the read-back values assume the counter does not wrap, as above.
- Generated.NewRequest: draws from that same counter, with the same limit.
- Responses.DecodeResponse: a scene-list frame with none of the three base keys decodes in Go with a nil base, which `submitRequest` would then dereference. The model gives it an empty base instead. No reply reaches this decoder without a `message-id`.
- Floating-point fields are not carried: `strain` and `fps` of a stream status, `volume` of a source, `version` of a version reply. The decoders pass over those members, so a non-numeric value there is not rejected. The round-trip lemmas (`Responses.DecodeWritten`, `Generated.DecodeWrittenReply`) hold whatever the server writes under them.
- Generated.Receive: `time.After` is a nondeterministic timeout outcome, not wall-clock time. A negative timeout counts as a deadline, as in the code.
- Generated.Receive: waiting twice on the same one-slot channels is not modelled.
- `obs/ws` and `obs/obsws` are separate Go packages although both are named `obsws`, and obs/ws/client.go does not compile as written: the `Client` struct (obs/ws/client.go:20-37) lists `bufferSize = 100`, `receiveTimeout = …`, `messageID = 0` and `lock = …` among its fields. The model reads those as the package-level variables they are evidently meant to be, and identifies the `receiveTimeout` that `SetReceiveTimeout` (obs/ws/client.go:71-73) sets with the one the generated `Receive` reads (obs/obsws/requests_general.go:62-77). `Connection.Settings` and `Generated.SetTimeoutGovernsReceive` rest on that identification.
- `Connected` only reads the `connected` flag. It appears as the `connected` field of `Connection.Settings` and as the connection flags of each `Connection.Iteration`.
- `handleEvent` and `handleResponse` of obs/ws/client.go are not part of this model; only the routing between them is.
- `StatusOK`, `_request` and `_response` of the generated package are declared outside the files modelled here. `StatusOK` is taken to be `"ok"`, and `_response` is taken to carry `message-id`, `status` and `error`.
- The `GetCurrentScene` reply struct (obs/client/ws/responses.go:46-49) is declared, but no request in the client uses it, so it is left out.
- `Authentify` (obs/client/ws/client.go:145-147) is unimplemented in the source and is left out.
- The CLI (cmd/scene-switcher/main.go), obs/ws.go, obs/client/ws/utils.go and the struct-only event files of obs/obsws are not part of this model.

## Findings

| source | as written | input that shows it | evidently intended | confidence | as-written member | corrected member |
|---|---|---|---|---|---|---|
| obs/obsws/requests_general.go:82-87 | `SendReceive` has a value receiver, so its call to `Send` marks a copy as sent and the caller's request stays unsent | call `SendReceive` twice on a new request over a working connection | the second call is refused with `ErrAlreadySent`, and the caller's request counts as sent so that its `Receive` waits for the reply | medium, not executed | Generated.SendReceiveAsWrittenResends | Generated.SendReceiveSendsOnce |
| obs/client/ws/responses.go:40-44 | `GetSceneListResponse` embeds `*responseBase`, a pointer to an unexported struct, and `GetSceneList` registers it with that pointer nil (obs/client/ws/requests.go:79). `encoding/json` cannot allocate the pointer, so decoding a reply that has `message-id` fails, and `handleResponse` panics (obs/client/ws/client.go:86-88) | `GetSceneList` on a fresh client, answered with `{"message-id":"1","status":"ok","error":"","current-scene":"Main","scenes":[{"name":"Main","sources":[]}]}` | the reply decodes into the scene list and `GetSceneList` returns it | high for Go 1.10 and later, not executed | Multiplexer.SceneListNeverDelivered | Responses.DecodeWritten |

The multiplexer follows the code as written and decodes replies with `Responses.DecodeResponse`. `Responses.DecodeResponseIntended` is the corrected decoder, and `Multiplexer.SceneListExample` shows the same frame under both.

=== FILE: connection.dfy ===
/**
  The connection of the generated client (obs/ws/client.go): its
  message-id counter, the rule by which the polling loop tells responses
  from events, and when that loop stops.
 */
module Connection {
  import opened Wrappers
  import opened Frames
  import Decimal
  import Events
  import Responses

  /** `getMessageID`: the counter moves up by one and the new value, in
      decimal without leading zeros, is the id. */
  function NextMessageId(counter: nat): (r: (nat, string))
    ensures r.0 == counter + 1
    ensures Decimal.IsNumeral(r.1) && r.1[0] != '0'
    ensures Decimal.Parse(r.1) == Some(r.0)
  {
    Decimal.ParseFormat(counter + 1);
    (counter + 1, Decimal.Format(counter + 1))
  }

  /** Ids drawn from the counter at different times differ: the counter
      only moves up and the rendering is injective. */
  lemma MessageIdsNeverRepeat(counter: nat, later: nat)
    requires counter < later
    ensures NextMessageId(counter).1 != NextMessageId(later).1
  {
    Decimal.FormatInjective(counter + 1, later + 1);
  }

  /** `n` successive calls of `getMessageID` starting from `counter`. */
  method IssueMessageIds(counter: nat, n: nat) returns (ids: seq<string>, last: nat)
    ensures last == counter + n && |ids| == n
    ensures forall k :: 0 <= k < n ==> Decimal.Parse(ids[k]) == Some(counter + k + 1)
    ensures forall i, j :: 0 <= i < j < n ==> ids[i] != ids[j]
  {
    ids := [];
    last := counter;
    while |ids| < n
      invariant |ids| <= n && last == counter + |ids|
      invariant forall k :: 0 <= k < |ids| ==> Decimal.Parse(ids[k]) == Some(counter + k + 1)
    {
      var next := NextMessageId(last);
      last := next.0;
      ids := ids + [next.1];
    }
    forall i, j | 0 <= i < j < n ensures ids[i] != ids[j] {
      assert Decimal.Parse(ids[i]) != Decimal.Parse(ids[j]);
    }
  }

  /** Where `poll` hands a message. */
  datatype Route = ToResponse | ToEvent

  /** A message is a response exactly when it has a `message-id` key, whatever that key holds. */
  function RouteOf(m: map<string, Json>): (r: Route)
    ensures r == ToResponse <==> "message-id" in m
  {
    if "message-id" in m then ToResponse else ToEvent
  }

  /** A reply as the server writes it is routed as a response. */
  lemma RepliesRouteToResponses(resp: Responses.Response)
    ensures Responses.Encode(resp).JObj? && RouteOf(Responses.Encode(resp).members) == ToResponse
  {
    assert "message-id" in Responses.EncodeBase(resp.base);
  }

  /** An event as the server writes it carries no `message-id` and is routed as an event. */
  lemma EventsRouteToEvents(ev: Events.Event)
    ensures Events.Encode(ev).JObj? && RouteOf(Events.Encode(ev).members) == ToEvent
  {
    BodyHasNoId(ev);
    EnvelopeAddsNoId(Events.BodyMembers(ev), Events.Encode(ev).members);
  }

  lemma BodyHasNoId(ev: Events.Event)
    ensures "message-id" !in Events.BodyMembers(ev)
  {
  }

  lemma EnvelopeAddsNoId(body: map<string, Json>, members: map<string, Json>)
    requires "message-id" !in body
    requires members.Keys == body.Keys + {"update-type", "stream-timecode", "rec-timecode"}
    ensures "message-id" !in members
  {
  }

  /** What one read of the socket produced. */
  datatype ReadResult = Read(message: map<string, Json>) | ReadFailed

  /** One turn of `poll`'s loop: whether the client was connected when the
      loop condition was checked, what the read produced, and whether it
      was still connected when a failed read was looked at. */
  datatype Iteration = Iteration(connectedAtHead: bool, read: ReadResult, connectedAfterRead: bool)

  datatype Handled = Handled(route: Route, message: map<string, Json>)

  /** `poll`: handle each read message by its route; a failed read is
      skipped while connected and ends the loop once disconnected; the loop
      also ends as soon as its condition finds the client disconnected. */
  function Poll(its: seq<Iteration>): (handled: seq<Handled>)
    ensures |handled| <= |its|
    ensures forall k :: 0 <= k < |handled| ==> handled[k].route == RouteOf(handled[k].message)
    decreases |its|
  {
    if |its| == 0 || !its[0].connectedAtHead then []
    else match its[0].read
      case ReadFailed => if its[0].connectedAfterRead then Poll(its[1..]) else []
      case Read(m) => [Handled(RouteOf(m), m)] + Poll(its[1..])
  }

  /** An iteration after which the loop does not continue. */
  predicate Ends(it: Iteration) {
    !it.connectedAtHead || (it.read.ReadFailed? && !it.connectedAfterRead)
  }

  /** How many iterations run to completion before the loop ends. */
  function Completed(its: seq<Iteration>): (n: nat)
    ensures n <= |its|
    ensures forall k :: 0 <= k < n ==> !Ends(its[k])
    ensures n < |its| ==> Ends(its[n])
    decreases |its|
  {
    if |its| == 0 || Ends(its[0]) then 0 else 1 + Completed(its[1..])
  }

  /** The messages successfully read, in order. */
  function Messages(its: seq<Iteration>): (ms: seq<map<string, Json>>)
    ensures |ms| <= |its|
    decreases |its|
  {
    if |its| == 0 then []
    else (if its[0].read.Read? then [its[0].read.message] else []) + Messages(its[1..])
  }

  function RouteAll(ms: seq<map<string, Json>>): (hs: seq<Handled>)
    ensures |hs| == |ms|
    ensures forall k :: 0 <= k < |ms| ==> hs[k] == Handled(RouteOf(ms[k]), ms[k])
  {
    if |ms| == 0 then [] else [Handled(RouteOf(ms[0]), ms[0])] + RouteAll(ms[1..])
  }

  /** `poll` handles exactly the messages read before the loop ends, each
      by its route, in the order they were read, and nothing read after. */
  lemma {:induction false} PollHandlesReadsUntilEnd(its: seq<Iteration>)
    ensures Poll(its) == RouteAll(Messages(its[..Completed(its)]))
    decreases |its|
  {
    if |its| == 0 || Ends(its[0]) {
      assert its[..Completed(its)] == [];
    } else {
      PollHandlesReadsUntilEnd(its[1..]);
      var n := Completed(its);
      assert its[..n][1..] == its[1..][..n - 1];
      var head := if its[0].read.Read? then [its[0].read.message] else [];
      assert Messages(its[..n]) == head + Messages(its[1..][..n - 1]);
      RouteAllAppend(head, Messages(its[1..][..n - 1]));
    }
  }

  lemma {:induction false} RouteAllAppend(a: seq<map<string, Json>>, b: seq<map<string, Json>>)
    ensures RouteAll(a + b) == RouteAll(a) + RouteAll(b)
    decreases |a|
  {
    if |a| > 0 {
      assert (a + b)[1..] == a[1..] + b;
      RouteAllAppend(a[1..], b);
    } else {
      assert a + b == b;
    }
  }

  /** What `SetReceiveTimeout` and `Connected` touch: the package-level
      receive timeout, and the client's own `connected` field. */
  datatype Settings = Settings(receiveTimeout: int, connected: bool)

  /** `SetReceiveTimeout`: the timeout changes and nothing else. */
  function SetReceiveTimeout(s: Settings, timeout: int): (r: Settings)
    ensures r.receiveTimeout == timeout && r.connected == s.connected
  {
    s.(receiveTimeout := timeout)
  }

  /** A receive timeout bounds the wait unless it is 0, the default, which means none. */
  predicate HasDeadline(s: Settings) {
    s.receiveTimeout != 0
  }
}

=== FILE: decimal.dfy ===
/**
  Decimal digit strings: the rendering of a counter as a message id
  (`fmt.Sprintf("%d", n)` and `strconv.Itoa(n)` on a non-negative counter)
  and the `%d` fields of a timecode.
 */
module Decimal {
  import opened Wrappers

  predicate IsDigit(c: char) {
    '0' <= c <= '9'
  }

  predicate AllDigits(s: string) {
    forall i :: 0 <= i < |s| ==> IsDigit(s[i])
  }

  /** A non-empty run of decimal digits. */
  predicate IsNumeral(s: string) {
    |s| > 0 && AllDigits(s)
  }

  function DigitValue(c: char): (d: nat)
    requires IsDigit(c)
    ensures d < 10
  {
    c as int - '0' as int
  }

  function DigitChar(d: nat): (c: char)
    requires d < 10
    ensures IsDigit(c) && DigitValue(c) == d
  {
    ('0' as int + d) as char
  }

  /** The number a digit string denotes; the empty string denotes 0. */
  function Value(s: string): nat
    requires AllDigits(s)
    decreases |s|
  {
    if |s| == 0 then 0 else Value(s[..|s| - 1]) * 10 + DigitValue(s[|s| - 1])
  }

  /** Canonical decimal rendering of `n`: no leading zero except for 0 itself. */
  function Format(n: nat): (s: string)
    ensures IsNumeral(s)
    ensures Value(s) == n
    ensures s[0] == '0' ==> n == 0
    decreases n
  {
    if n < 10 then [DigitChar(n)]
    else
      var prefix := Format(n / 10);
      var s := prefix + [DigitChar(n % 10)];
      assert s[..|s| - 1] == prefix;
      s
  }

  /** Reads a numeral; anything that is not a non-empty digit run is rejected. */
  function Parse(s: string): (r: Option<nat>)
    ensures r.Some? <==> IsNumeral(s)
    ensures r.Some? ==> r.value == Value(s)
  {
    if IsNumeral(s) then Some(Value(s)) else None
  }

  /** Rendering then reading gives back the number. */
  lemma ParseFormat(n: nat)
    ensures Parse(Format(n)) == Some(n)
  {
  }

  /** Distinct numbers render as distinct strings. */
  lemma FormatInjective(a: nat, b: nat)
    requires a != b
    ensures Format(a) != Format(b)
  {
    ParseFormat(a);
    ParseFormat(b);
  }

  function Zeros(k: nat): (z: string)
    ensures |z| == k && AllDigits(z)
    ensures forall i :: 0 <= i < k ==> z[i] == '0'
  {
    seq(k, _ => '0')
  }

  /** Leading zeros do not change the value of a digit string. */
  lemma {:induction false} ValueIgnoresLeadingZeros(k: nat, s: string)
    requires AllDigits(s)
    ensures AllDigits(Zeros(k) + s)
    ensures Value(Zeros(k) + s) == Value(s)
    decreases |s|
  {
    var t := Zeros(k) + s;
    assert AllDigits(t) by {
      forall i | 0 <= i < |t| ensures IsDigit(t[i]) {
        if i < k { assert t[i] == '0'; } else { assert t[i] == s[i - k]; }
      }
    }
    if |s| == 0 {
      assert t == Zeros(k);
      ZerosValue(k);
    } else {
      var init := s[..|s| - 1];
      assert t[..|t| - 1] == Zeros(k) + init;
      assert t[|t| - 1] == s[|s| - 1];
      ValueIgnoresLeadingZeros(k, init);
    }
  }

  lemma {:induction false} ZerosValue(k: nat)
    ensures Value(Zeros(k)) == 0
  {
    if k > 0 {
      assert Zeros(k)[..k - 1] == Zeros(k - 1);
      ZerosValue(k - 1);
    }
  }

  /** A digit string of positive leading digit has a positive value. */
  lemma {:induction false} LeadingDigitPositive(s: string)
    requires IsNumeral(s) && s[0] != '0'
    ensures Value(s) > 0
    decreases |s|
  {
    if |s| > 1 {
      var init := s[..|s| - 1];
      assert init[0] == s[0];
      LeadingDigitPositive(init);
    }
  }

  /** A numeral with no superfluous leading zero is the rendering of its value. */
  lemma {:induction false} CanonicalIsFormat(t: string)
    requires IsNumeral(t) && (|t| == 1 || t[0] != '0')
    ensures t == Format(Value(t))
    decreases |t|
  {
    var last := t[|t| - 1];
    if |t| == 1 {
      assert t == [last];
      assert DigitChar(DigitValue(last)) == last;
    } else {
      var init := t[..|t| - 1];
      assert init[0] == t[0];
      LeadingDigitPositive(init);
      CanonicalIsFormat(init);
      var n := Value(t);
      assert n == Value(init) * 10 + DigitValue(last);
      assert n / 10 == Value(init) && n % 10 == DigitValue(last);
      assert DigitChar(DigitValue(last)) == last;
      assert t == init + [last];
    }
  }

  /** The number of zeros before the significant digits of a numeral (all
      but the last digit when the numeral is all zeros). */
  function LeadingZeros(s: string): (k: nat)
    requires IsNumeral(s)
    ensures k < |s|
    ensures forall i :: 0 <= i < k ==> s[i] == '0'
    ensures k == |s| - 1 || s[k] != '0'
    decreases |s|
  {
    if |s| > 1 && s[0] == '0' then 1 + LeadingZeros(s[1..]) else 0
  }

  /** A string reads as `n` exactly when it is `n`'s rendering preceded by
      any number of zeros: reading inverts `Format` up to leading zeros. */
  lemma ParseIffPaddedFormat(s: string, n: nat)
    ensures Parse(s) == Some(n) <==> exists k: nat :: s == Zeros(k) + Format(n)
  {
    if Parse(s) == Some(n) {
      var k := LeadingZeros(s);
      var t := s[k..];
      assert s == Zeros(k) + t;
      assert IsNumeral(t) && (|t| == 1 || t[0] != '0');
      ValueIgnoresLeadingZeros(k, t);
      CanonicalIsFormat(t);
    }
    if exists k: nat :: s == Zeros(k) + Format(n) {
      var k: nat :| s == Zeros(k) + Format(n);
      ValueIgnoresLeadingZeros(k, Format(n));
    }
  }

  /** `Format(n)` left-padded with zeros to at least `width` characters,
      the way a server writes `%02d` and `%03d` fields. */
  function PadLeft(n: nat, width: nat): (s: string)
    ensures IsNumeral(s)
    ensures |s| >= width
    ensures Value(s) == n
  {
    var digits := Format(n);
    var pad := if |digits| < width then width - |digits| else 0;
    ValueIgnoresLeadingZeros(pad, digits);
    Zeros(pad) + digits
  }
}

=== FILE: events.dfy ===
/**
  Event decoding (obs/client/ws/events.go): the shared event envelope with
  its optional timecodes, the six-entry registry of event types, and
  `UnmarshalEvent`, which classifies a frame as not-an-event, a bad
  timecode, an unknown type or a decoded event, in that order.
 */
module Events {
  import opened Wrappers
  import opened Frames
  import Timecode

  /** Stored in place of a timecode the message did not carry. */
  const Absent: int := -1

  /** The fields every event shares; a negative timecode means "absent". */
  datatype RawEvent = RawEvent(eventType: string, streamTC: int, recTC: int) {
    function UpdateType(): string {
      eventType
    }

    /** Time since the stream started, and whether the stream has started. */
    function StreamTimecode(): (r: (int, bool))
      ensures r.1 <==> streamTC >= 0
      ensures r.1 ==> r.0 == streamTC
      ensures !r.1 ==> r.0 == 0
    {
      if streamTC < 0 then (0, false) else (streamTC, true)
    }

    /** Time since the recording started, and whether it has started. */
    function RecordTimecode(): (r: (int, bool))
      ensures r.1 <==> recTC >= 0
      ensures r.1 ==> r.0 == recTC
      ensures !r.1 ==> r.0 == 0
    {
      if recTC < 0 then (0, false) else (recTC, true)
    }

    /** `copyFromOther`: every field of the receiver is overwritten from what
        `other` reports through its accessors, absence written as -1. */
    function CopyFromOther(other: RawEvent): (r: RawEvent)
      ensures r.UpdateType() == other.UpdateType()
      ensures r.StreamTimecode() == other.StreamTimecode()
      ensures r.RecordTimecode() == other.RecordTimecode()
      ensures r.Normal()
    {
      var (stream, streamOk) := other.StreamTimecode();
      var (rec, recOk) := other.RecordTimecode();
      RawEvent(other.UpdateType(), if streamOk then stream else Absent, if recOk then rec else Absent)
    }

    /** Absence is written as exactly -1. */
    predicate Normal() {
      streamTC >= Absent && recTC >= Absent
    }
  }

  /** Copying from an envelope that writes absence as -1 reproduces it exactly,
      whatever the receiver held: absent stays absent. */
  lemma CopyFromNormal(receiver: RawEvent, other: RawEvent)
    requires other.Normal()
    ensures receiver.CopyFromOther(other) == other
  {
  }

  /** The event types the client knows how to decode. */
  datatype EventKind =
    | SwitchScenes
    | ScenesChanged
    | SourceOrderChanged
    | SceneItemAdded
    | SceneItemRemoved
    | StreamStatus
  {
    /** The `update-type` under which the kind is registered. */
    function Key(): string {
      match this
      case SwitchScenes => "SwitchScenes"
      case ScenesChanged => "ScenesChanged"
      case SourceOrderChanged => "SourceOrderChanged"
      case SceneItemAdded => "SceneItemAdded"
      case SceneItemRemoved => "SceneItemRemoved"
      case StreamStatus => "StreamStatus"
    }
  }

  /** `eventFactory`: the registry from `update-type` to event kind. */
  const Registry: map<string, EventKind> := map[
    "SwitchScenes" := SwitchScenes,
    "ScenesChanged" := ScenesChanged,
    "SourceOrderChanged" := SourceOrderChanged,
    "SceneItemAdded" := SceneItemAdded,
    "SceneItemRemoved" := SceneItemRemoved,
    "StreamStatus" := StreamStatus
  ]

  /** The registry has six keys, every kind is registered under its own key,
      and every key maps to the kind that carries it. */
  lemma RegistryIsExact()
    ensures |Registry.Keys| == 6
    ensures forall k: EventKind :: k.Key() in Registry && Registry[k.Key()] == k
    ensures forall key :: key in Registry ==> Registry[key].Key() == key
  {
    assert Registry.Keys == {"SwitchScenes", "ScenesChanged", "SourceOrderChanged",
                             "SceneItemAdded", "SceneItemRemoved", "StreamStatus"};
  }

  /** A decoded event: one variant per registered kind, each embedding the envelope.
      The fractional `strain` and `fps` of a stream status are not modelled. */
  datatype Event =
    | EventSwitchScenes(sceneName: string, raw: RawEvent)
    | EventScenesChanged(raw: RawEvent)
    | EventSourceOrderChanged(sceneName: string, raw: RawEvent)
    | EventSceneItemAdded(sceneName: string, itemName: string, raw: RawEvent)
    | EventSceneItemRemoved(sceneName: string, itemName: string, raw: RawEvent)
    | EventStreamStatus(
        streaming: bool, recording: bool, previewOnly: bool,
        bytesPerSec: int, kbitsPerSec: int, totalStreamTime: int,
        numTotalFrames: int, numDroppedFrames: int,
        raw: RawEvent)
  {
    function Kind(): EventKind {
      match this
      case EventSwitchScenes(_, _) => SwitchScenes
      case EventScenesChanged(_) => ScenesChanged
      case EventSourceOrderChanged(_, _) => SourceOrderChanged
      case EventSceneItemAdded(_, _, _) => SceneItemAdded
      case EventSceneItemRemoved(_, _, _) => SceneItemRemoved
      case EventStreamStatus(_, _, _, _, _, _, _, _, _) => StreamStatus
    }

    /** Its discriminator is the key of its own kind and absence is written as -1. */
    predicate WellFormed() {
      raw.eventType == Kind().Key() && raw.Normal()
    }
  }

  datatype EventError =
    | JsonError(cause: DecodeError)
    | NotEventMessage
    | BadTimecode(timecodeError: Timecode.TimecodeError)
    | UnknownEventType(eventType: string)
  {
    function Message(): string
      requires !JsonError?
    {
      match this
      case NotEventMessage => "obsws: message is not an event"
      case BadTimecode(e) => e.Message()
      case UnknownEventType(t) => "obsws: unknown event type '" + t + "'"
    }
  }

  /** The generic part every event frame is read into first. */
  datatype Envelope = Envelope(
    updateType: string, streamTimecode: string, recTimecode: string,
    members: map<string, Json>)

  function ReadEnvelope(f: Frame): (r: Result<Envelope, DecodeError>)
    ensures r.Success? ==> FrameMembers(f) == Success(r.value.members)
    ensures r.Success? ==> StringField(r.value.members, "update-type") == Success(r.value.updateType)
    ensures r.Success? ==> StringField(r.value.members, "stream-timecode") == Success(r.value.streamTimecode)
    ensures r.Success? ==> StringField(r.value.members, "rec-timecode") == Success(r.value.recTimecode)
  {
    var m :- FrameMembers(f);
    var stream :- StringField(m, "stream-timecode");
    var rec :- StringField(m, "rec-timecode");
    var updateType :- StringField(m, "update-type");
    Success(Envelope(updateType, stream, rec, m))
  }

  /** An optional timecode field: empty is absent, anything else must parse. */
  function DecodeTimecode(text: string): (r: Result<int, Timecode.TimecodeError>)
    ensures text == "" ==> r == Success(Absent)
    ensures text != "" ==> (r.Success? <==> Timecode.ParseTC(text).err.None?)
    ensures text != "" && r.Success? ==> r.value == Timecode.ParseTC(text).duration && r.value >= 0
    ensures text != "" && r.Failure? ==> r.error == Timecode.InvalidTimecode(text)
  {
    if |text| == 0 then Success(Absent)
    else
      var parsed := Timecode.ParseTC(text);
      match parsed.err
      case Some(e) => Failure(e)
      case None => Success(parsed.duration)
  }

  /** The kind-specific fields, decoded on top of a zero envelope. */
  function DecodeBody(kind: EventKind, m: map<string, Json>): (r: Result<Event, DecodeError>)
    ensures r.Success? ==> r.value.Kind() == kind && r.value.raw == RawEvent("", 0, 0)
    ensures r.Success? && !r.value.EventScenesChanged? && !r.value.EventStreamStatus? ==>
      StringField(m, "scene-name") == Success(r.value.sceneName)
    ensures r.Success? && (r.value.EventSceneItemAdded? || r.value.EventSceneItemRemoved?) ==>
      StringField(m, "item-name") == Success(r.value.itemName)
    ensures r.Success? && r.value.EventStreamStatus? ==>
      && BoolField(m, "streaming") == Success(r.value.streaming)
      && BoolField(m, "recording") == Success(r.value.recording)
      && BoolField(m, "preview-only") == Success(r.value.previewOnly)
      && IntField(m, "bytes-per-sec") == Success(r.value.bytesPerSec)
      && IntField(m, "kbits-per-sec") == Success(r.value.kbitsPerSec)
      && IntField(m, "total-stream-time") == Success(r.value.totalStreamTime)
      && IntField(m, "num-total-frames") == Success(r.value.numTotalFrames)
      && IntField(m, "num-dropped-frames") == Success(r.value.numDroppedFrames)
  {
    var zero := RawEvent("", 0, 0);
    match kind
    case SwitchScenes =>
      var scene :- StringField(m, "scene-name");
      Success(EventSwitchScenes(scene, zero))
    case ScenesChanged =>
      Success(EventScenesChanged(zero))
    case SourceOrderChanged =>
      var scene :- StringField(m, "scene-name");
      Success(EventSourceOrderChanged(scene, zero))
    case SceneItemAdded =>
      var scene :- StringField(m, "scene-name");
      var item :- StringField(m, "item-name");
      Success(EventSceneItemAdded(scene, item, zero))
    case SceneItemRemoved =>
      var scene :- StringField(m, "scene-name");
      var item :- StringField(m, "item-name");
      Success(EventSceneItemRemoved(scene, item, zero))
    case StreamStatus =>
      var streaming :- BoolField(m, "streaming");
      var recording :- BoolField(m, "recording");
      var previewOnly :- BoolField(m, "preview-only");
      var bytesPerSec :- IntField(m, "bytes-per-sec");
      var kbitsPerSec :- IntField(m, "kbits-per-sec");
      var totalStreamTime :- IntField(m, "total-stream-time");
      var numTotalFrames :- IntField(m, "num-total-frames");
      var numDroppedFrames :- IntField(m, "num-dropped-frames");
      Success(EventStreamStatus(streaming, recording, previewOnly, bytesPerSec, kbitsPerSec,
        totalStreamTime, numTotalFrames, numDroppedFrames, zero))
  }

  /** The JSON kind a body field holds. */
  datatype FieldType = TextField | FlagField | CountField

  /** The json tags of each kind's own fields with their types, in
      declaration order; the fractional `strain` and `fps` are not listed. */
  function BodyTags(kind: EventKind): seq<(string, FieldType)> {
    match kind
    case SwitchScenes => [("scene-name", TextField)]
    case ScenesChanged => []
    case SourceOrderChanged => [("scene-name", TextField)]
    case SceneItemAdded => [("scene-name", TextField), ("item-name", TextField)]
    case SceneItemRemoved => [("scene-name", TextField), ("item-name", TextField)]
    case StreamStatus => [("streaming", FlagField), ("recording", FlagField), ("preview-only", FlagField),
      ("bytes-per-sec", CountField), ("kbits-per-sec", CountField), ("total-stream-time", CountField),
      ("num-total-frames", CountField), ("num-dropped-frames", CountField)]
  }

  /** `json.Unmarshal` can fill the field tagged `tag.0` from `m`: the member
      is missing or `null` (the field keeps its zero value) or of the field's kind. */
  predicate Accepts(m: map<string, Json>, tag: (string, FieldType)) {
    tag.0 !in m || m[tag.0].JNull?
    || match tag.1
       case TextField => m[tag.0].JStr?
       case FlagField => m[tag.0].JBool?
       case CountField => m[tag.0].JNum?
  }

  /** A kind's fields decode exactly when every member under its tags is
      accepted; otherwise the error names the first tag that is not. */
  lemma DecodeBodyAccepts(kind: EventKind, m: map<string, Json>)
    ensures DecodeBody(kind, m).Success? <==>
      forall i :: 0 <= i < |BodyTags(kind)| ==> Accepts(m, BodyTags(kind)[i])
    ensures DecodeBody(kind, m).Failure? ==>
      exists i :: 0 <= i < |BodyTags(kind)| && !Accepts(m, BodyTags(kind)[i])
        && (forall j :: 0 <= j < i ==> Accepts(m, BodyTags(kind)[j]))
        && DecodeBody(kind, m).error == TypeMismatch(BodyTags(kind)[i].0)
  {
    var tags := BodyTags(kind);
    var k := FirstRejected(m, tags, 0);
    if k < |tags| {
      assert !Accepts(m, tags[k]) && forall j :: 0 <= j < k ==> Accepts(m, tags[j]);
      match kind
      case SwitchScenes =>
      case ScenesChanged =>
      case SourceOrderChanged =>
      case SceneItemAdded => TwoNamesRejected(SceneItemAdded, m, k);
      case SceneItemRemoved => TwoNamesRejected(SceneItemRemoved, m, k);
      case StreamStatus => StreamStatusRejected(m, k);
    } else {
      match kind
      case SwitchScenes =>
      case ScenesChanged =>
      case SourceOrderChanged =>
      case SceneItemAdded => assert Accepts(m, tags[0]) && Accepts(m, tags[1]);
      case SceneItemRemoved => assert Accepts(m, tags[0]) && Accepts(m, tags[1]);
      case StreamStatus =>
        assert Accepts(m, tags[0]) && Accepts(m, tags[1]) && Accepts(m, tags[2]) && Accepts(m, tags[3]);
        assert Accepts(m, tags[4]) && Accepts(m, tags[5]) && Accepts(m, tags[6]) && Accepts(m, tags[7]);
    }
  }

  lemma TwoNamesRejected(kind: EventKind, m: map<string, Json>, k: nat)
    requires kind == SceneItemAdded || kind == SceneItemRemoved
    requires k < 2 && !Accepts(m, BodyTags(kind)[k])
    requires forall j :: 0 <= j < k ==> Accepts(m, BodyTags(kind)[j])
    ensures DecodeBody(kind, m) == Failure(TypeMismatch(BodyTags(kind)[k].0))
  {
    if k == 1 {
      assert Accepts(m, BodyTags(kind)[0]);
    }
  }

  lemma StreamStatusRejected(m: map<string, Json>, k: nat)
    requires k < 8 && !Accepts(m, BodyTags(StreamStatus)[k])
    requires forall j :: 0 <= j < k ==> Accepts(m, BodyTags(StreamStatus)[j])
    ensures DecodeBody(StreamStatus, m) == Failure(TypeMismatch(BodyTags(StreamStatus)[k].0))
  {
    var tags := BodyTags(StreamStatus);
    if k > 0 { assert Accepts(m, tags[0]); }
    if k > 1 { assert Accepts(m, tags[1]); }
    if k > 2 { assert Accepts(m, tags[2]); }
    if k > 3 { assert Accepts(m, tags[3]); }
    if k > 4 { assert Accepts(m, tags[4]); }
    if k > 5 { assert Accepts(m, tags[5]); }
    if k > 6 { assert Accepts(m, tags[6]); }
  }

  /** The index of the first tag from `from` on whose member is not accepted,
      or `|tags|` when there is none. */
  function FirstRejected(m: map<string, Json>, tags: seq<(string, FieldType)>, from: nat): (k: nat)
    requires from <= |tags|
    requires forall j :: 0 <= j < from ==> Accepts(m, tags[j])
    ensures from <= k <= |tags|
    ensures forall j :: 0 <= j < k ==> Accepts(m, tags[j])
    ensures k < |tags| ==> !Accepts(m, tags[k])
    decreases |tags| - from
  {
    if from == |tags| || !Accepts(m, tags[from]) then from else FirstRejected(m, tags, from + 1)
  }

  /** `UnmarshalEvent`. The checks run in a fixed order: the envelope must
      decode, `update-type` must be non-empty, both timecodes must read, the
      type must be registered, and only then are the kind's fields decoded. */
  function UnmarshalEvent(f: Frame): (r: Result<Event, EventError>)
    ensures r.Success? ==> r.value.WellFormed()
    ensures r.Success? ==> r.value.raw.eventType in Registry && Registry[r.value.raw.eventType] == r.value.Kind()
    ensures r.Success? || r.error.UnknownEventType? ==> ReadEnvelope(f).Success?
    ensures r.Success? ==> r.value.raw.eventType == ReadEnvelope(f).value.updateType
    ensures r.Failure? && r.error.UnknownEventType? ==>
      r.error.eventType == ReadEnvelope(f).value.updateType
      && r.error.eventType != "" && r.error.eventType !in Registry
  {
    match ReadEnvelope(f)
    case Failure(e) => Failure(JsonError(e))
    case Success(env) =>
      if |env.updateType| == 0 then Failure(NotEventMessage)
      else match DecodeTimecode(env.streamTimecode)
        case Failure(e) => Failure(BadTimecode(e))
        case Success(stream) =>
          match DecodeTimecode(env.recTimecode)
          case Failure(e) => Failure(BadTimecode(e))
          case Success(rec) =>
            if env.updateType !in Registry then Failure(UnknownEventType(env.updateType))
            else match DecodeRegistered(env.updateType, stream, rec, env.members)
              case Failure(e) => Failure(JsonError(e))
              case Success(ev) => Success(ev)
  }

  /** The last step of `UnmarshalEvent`: the registered kind's fields,
      decoded on a zero envelope that then takes the frame's envelope. */
  function DecodeRegistered(updateType: string, stream: int, rec: int, m: map<string, Json>)
    : (r: Result<Event, DecodeError>)
    requires updateType in Registry && stream >= Absent && rec >= Absent
    ensures r.Success? ==> r.value.WellFormed() && r.value.Kind() == Registry[updateType]
    ensures r.Success? ==> r.value.raw == RawEvent(updateType, stream, rec)
  {
    RegistryIsExact();
    match DecodeBody(Registry[updateType], m)
    case Failure(e) => Failure(e)
    case Success(ev) => Success(ev.(raw := ev.raw.CopyFromOther(RawEvent(updateType, stream, rec))))
  }

  /** A frame is "not an event" exactly when its envelope decodes and its
      `update-type` is empty or missing. */
  lemma NotEventIff(f: Frame)
    ensures UnmarshalEvent(f) == Failure(NotEventMessage)
      <==> ReadEnvelope(f).Success? && ReadEnvelope(f).value.updateType == ""
  {
  }

  /** On success the timecodes are those of the frame: an empty field is
      absent, a non-empty one is the duration it reads as. */
  lemma DecodedTimecodes(f: Frame)
    requires UnmarshalEvent(f).Success?
    ensures var env := ReadEnvelope(f).value; var ev := UnmarshalEvent(f).value;
      && (env.streamTimecode == "" ==> ev.raw.StreamTimecode() == (0, false))
      && (env.streamTimecode != "" ==> ev.raw.StreamTimecode() == (Timecode.ParseTC(env.streamTimecode).duration, true))
      && (env.recTimecode == "" ==> ev.raw.RecordTimecode() == (0, false))
      && (env.recTimecode != "" ==> ev.raw.RecordTimecode() == (Timecode.ParseTC(env.recTimecode).duration, true))
  {
  }

  /** A bad timecode fails the whole decode, and is reported before the
      registry is consulted: even an unregistered type yields `BadTimecode`. */
  lemma BadTimecodeFirst(f: Frame)
    requires ReadEnvelope(f).Success?
    requires ReadEnvelope(f).value.updateType != ""
    requires DecodeTimecode(ReadEnvelope(f).value.streamTimecode).Failure?
             || DecodeTimecode(ReadEnvelope(f).value.recTimecode).Failure?
    ensures UnmarshalEvent(f).Failure? && UnmarshalEvent(f).error.BadTimecode?
  {
  }

  /** An unregistered, non-empty type with readable timecodes is reported,
      carrying the type, as `UnknownEventType`. */
  lemma UnknownTypeReported(f: Frame)
    requires ReadEnvelope(f).Success?
    requires var env := ReadEnvelope(f).value;
      && env.updateType != "" && env.updateType !in Registry
      && DecodeTimecode(env.streamTimecode).Success? && DecodeTimecode(env.recTimecode).Success?
    ensures UnmarshalEvent(f) == Failure(UnknownEventType(ReadEnvelope(f).value.updateType))
  {
  }

  /** How a timecode is written on the wire: absent as an empty string. */
  function TimecodeText(tc: int): (text: string)
    ensures tc < 0 <==> text == ""
  {
    if tc < 0 then "" else Timecode.Format(tc)
  }

  /** The kind-specific members of an event as the server sends them. */
  function BodyMembers(ev: Event): map<string, Json> {
    match ev
    case EventSwitchScenes(scene, _) => map["scene-name" := JStr(scene)]
    case EventScenesChanged(_) => map[]
    case EventSourceOrderChanged(scene, _) => map["scene-name" := JStr(scene)]
    case EventSceneItemAdded(scene, item, _) => map["scene-name" := JStr(scene), "item-name" := JStr(item)]
    case EventSceneItemRemoved(scene, item, _) => map["scene-name" := JStr(scene), "item-name" := JStr(item)]
    case EventStreamStatus(streaming, recording, previewOnly, bytesPerSec, kbitsPerSec,
        totalStreamTime, numTotalFrames, numDroppedFrames, _) =>
      map["streaming" := JBool(streaming), "recording" := JBool(recording),
          "preview-only" := JBool(previewOnly), "bytes-per-sec" := JNum(bytesPerSec),
          "kbits-per-sec" := JNum(kbitsPerSec), "total-stream-time" := JNum(totalStreamTime),
          "num-total-frames" := JNum(numTotalFrames), "num-dropped-frames" := JNum(numDroppedFrames)]
  }

  /** An event frame as the server writes it. */
  function Encode(ev: Event): Json {
    JObj(BodyMembers(ev)
      + map["update-type" := JStr(ev.Kind().Key()),
            "stream-timecode" := JStr(TimecodeText(ev.raw.streamTC)),
            "rec-timecode" := JStr(TimecodeText(ev.raw.recTC))])
  }

  lemma TimecodeTextRoundTrip(tc: int)
    requires tc >= Absent
    ensures DecodeTimecode(TimecodeText(tc)) == Success(tc)
  {
    if tc >= 0 {
      Timecode.ParseFormat(tc);
    }
  }

  lemma BodyRoundTrip(ev: Event, m: map<string, Json>)
    requires Extends(m, BodyMembers(ev))
    ensures DecodeBody(ev.Kind(), m) == Success(ev.(raw := RawEvent("", 0, 0)))
  {
    var b := BodyMembers(ev);
    match ev
    case EventSwitchScenes(scene, _) =>
      NamedBody(m, b, scene, None);
    case EventScenesChanged(_) =>
    case EventSourceOrderChanged(scene, _) =>
      NamedBody(m, b, scene, None);
    case EventSceneItemAdded(scene, item, _) =>
      NamedBody(m, b, scene, Some(item));
    case EventSceneItemRemoved(scene, item, _) =>
      NamedBody(m, b, scene, Some(item));
    case EventStreamStatus(_, _, _, _, _, _, _, _, _) =>
      StreamStatusRoundTrip(ev, m);
  }

  lemma StreamStatusRoundTrip(ev: Event, m: map<string, Json>)
    requires ev.EventStreamStatus?
    requires Extends(m, BodyMembers(ev))
    ensures DecodeBody(StreamStatus, m) == Success(EventStreamStatus(ev.streaming, ev.recording,
      ev.previewOnly, ev.bytesPerSec, ev.kbitsPerSec, ev.totalStreamTime, ev.numTotalFrames,
      ev.numDroppedFrames, RawEvent("", 0, 0)))
  {
    var b := BodyMembers(ev);
    assert "streaming" in b && "recording" in b && "preview-only" in b;
    assert "bytes-per-sec" in b && "kbits-per-sec" in b && "total-stream-time" in b;
    assert "num-total-frames" in b && "num-dropped-frames" in b;
    StreamStatusBody(m, ev.streaming, ev.recording, ev.previewOnly, ev.bytesPerSec, ev.kbitsPerSec,
      ev.totalStreamTime, ev.numTotalFrames, ev.numDroppedFrames);
  }

  lemma NamedBody(m: map<string, Json>, b: map<string, Json>, scene: string, item: Option<string>)
    requires "scene-name" in b && b["scene-name"] == JStr(scene)
    requires item.Some? ==> "item-name" in b && b["item-name"] == JStr(item.value)
    requires Extends(m, b)
    ensures StringField(m, "scene-name") == Success(scene)
    ensures item.Some? ==> StringField(m, "item-name") == Success(item.value)
  {
  }

  lemma StreamStatusBody(m: map<string, Json>, streaming: bool, recording: bool, previewOnly: bool,
      bytesPerSec: int, kbitsPerSec: int, totalStreamTime: int, numTotalFrames: int, numDroppedFrames: int)
    requires "streaming" in m && m["streaming"] == JBool(streaming)
    requires "recording" in m && m["recording"] == JBool(recording)
    requires "preview-only" in m && m["preview-only"] == JBool(previewOnly)
    requires "bytes-per-sec" in m && m["bytes-per-sec"] == JNum(bytesPerSec)
    requires "kbits-per-sec" in m && m["kbits-per-sec"] == JNum(kbitsPerSec)
    requires "total-stream-time" in m && m["total-stream-time"] == JNum(totalStreamTime)
    requires "num-total-frames" in m && m["num-total-frames"] == JNum(numTotalFrames)
    requires "num-dropped-frames" in m && m["num-dropped-frames"] == JNum(numDroppedFrames)
    ensures DecodeBody(StreamStatus, m) == Success(EventStreamStatus(streaming, recording, previewOnly,
      bytesPerSec, kbitsPerSec, totalStreamTime, numTotalFrames, numDroppedFrames, RawEvent("", 0, 0)))
  {
  }

  lemma ReadEnvelopeOf(m: map<string, Json>, updateType: string, stream: string, rec: string)
    requires StringField(m, "update-type") == Success(updateType)
    requires StringField(m, "stream-timecode") == Success(stream)
    requires StringField(m, "rec-timecode") == Success(rec)
    ensures ReadEnvelope(Parsed(JObj(m))) == Success(Envelope(updateType, stream, rec, m))
  {
  }

  lemma EnvelopeOfEncoded(ev: Event)
    ensures ReadEnvelope(Parsed(Encode(ev))) == Success(Envelope(ev.Kind().Key(),
      TimecodeText(ev.raw.streamTC), TimecodeText(ev.raw.recTC), Encode(ev).members))
  {
    var m := Encode(ev).members;
    var stream, rec := TimecodeText(ev.raw.streamTC), TimecodeText(ev.raw.recTC);
    EnvelopeMembers(BodyMembers(ev), m, ev.Kind().Key(), stream, rec);
    ReadEnvelopeOf(m, ev.Kind().Key(), stream, rec);
  }

  /** The success path of `UnmarshalEvent`, one step at a time. */
  lemma UnmarshalSucceeds(f: Frame, env: Envelope, stream: int, rec: int, body: Event)
    requires ReadEnvelope(f) == Success(env) && env.updateType != ""
    requires DecodeTimecode(env.streamTimecode) == Success(stream)
    requires DecodeTimecode(env.recTimecode) == Success(rec)
    requires env.updateType in Registry
    requires DecodeBody(Registry[env.updateType], env.members) == Success(body)
    ensures UnmarshalEvent(f) == Success(body.(raw := body.raw.CopyFromOther(RawEvent(env.updateType, stream, rec))))
  {
  }

  lemma EncodeKeepsBody(ev: Event)
    ensures Extends(Encode(ev).members, BodyMembers(ev))
  {
    BodyAvoidsEnvelope(ev);
    MergeKeepsLeft(BodyMembers(ev), Encode(ev).members, map["update-type" := JStr(ev.Kind().Key()),
      "stream-timecode" := JStr(TimecodeText(ev.raw.streamTC)),
      "rec-timecode" := JStr(TimecodeText(ev.raw.recTC))]);
  }

  lemma BodyAvoidsEnvelope(ev: Event)
    ensures "update-type" !in BodyMembers(ev) && "stream-timecode" !in BodyMembers(ev)
      && "rec-timecode" !in BodyMembers(ev)
  {
  }

  lemma EnvelopeMembers(body: map<string, Json>, m: map<string, Json>, updateType: string,
      stream: string, rec: string)
    requires m == body + map["update-type" := JStr(updateType), "stream-timecode" := JStr(stream),
      "rec-timecode" := JStr(rec)]
    ensures StringField(m, "update-type") == Success(updateType)
    ensures StringField(m, "stream-timecode") == Success(stream)
    ensures StringField(m, "rec-timecode") == Success(rec)
  {
  }

  lemma MergeKeepsLeft(body: map<string, Json>, merged: map<string, Json>, env: map<string, Json>)
    requires merged == body + env && body.Keys !! env.Keys
    ensures Extends(merged, body)
  {
  }

  /** Decoding what the server writes for a well-formed event gives back that event. */
  lemma UnmarshalEncoded(ev: Event)
    requires ev.WellFormed()
    ensures UnmarshalEvent(Parsed(Encode(ev))) == Success(ev)
  {
    var f := Parsed(Encode(ev));
    var m := Encode(ev).members;
    var key := ev.Kind().Key();
    var env := Envelope(key, TimecodeText(ev.raw.streamTC), TimecodeText(ev.raw.recTC), m);
    EnvelopeOfEncoded(ev);
    TimecodeTextRoundTrip(ev.raw.streamTC);
    TimecodeTextRoundTrip(ev.raw.recTC);
    RegistryIsExact();
    EncodeKeepsBody(ev);
    BodyRoundTrip(ev, m);
    var body := ev.(raw := RawEvent("", 0, 0));
    UnmarshalSucceeds(f, env, ev.raw.streamTC, ev.raw.recTC, body);
    CopyFromNormal(body.raw, ev.raw);
  }

  /** A response frame is not an event, even with a numeric id. */
  lemma ResponseFrameIsNotEvent()
    ensures UnmarshalEvent(Parsed(JObj(map["message-id" := JNum(1234), "status" := JStr("ok"),
      "error" := JStr("")]))) == Failure(NotEventMessage)
  {
  }

  /** An `update-type` that is not a string is a decoding error. */
  lemma NumericUpdateTypeRejected()
    ensures UnmarshalEvent(Parsed(JObj(map["update-type" := JNum(42)])))
      == Failure(JsonError(TypeMismatch("update-type")))
  {
  }

  /** An unregistered type is reported by name. */
  lemma UnknownTypeExample()
    ensures UnmarshalEvent(Parsed(JObj(map["update-type" := JStr("foo")])))
      == Failure(UnknownEventType("foo"))
    ensures UnknownEventType("foo").Message() == "obsws: unknown event type 'foo'"
  {
  }

  /** A bad timecode is reported even for a registered type. */
  lemma BadTimecodeExample()
    ensures UnmarshalEvent(Parsed(JObj(map["update-type" := JStr("SwitchScenes"),
      "stream-timecode" := JStr("a")]))) == Failure(BadTimecode(Timecode.InvalidTimecode("a")))
  {
    Timecode.RejectedTimecodes();
  }

  /** A set stream timecode is present and read; the missing recording one is absent. */
  lemma StreamTimecodeExample()
    ensures var r := UnmarshalEvent(Parsed(JObj(map["update-type" := JStr("ScenesChanged"),
      "stream-timecode" := JStr("01:00:00.000")])));
      && r.Success? && r.value.EventScenesChanged?
      && r.value.raw.UpdateType() == "ScenesChanged"
      && r.value.raw.StreamTimecode() == (Timecode.MillisPerHour, true)
      && r.value.raw.RecordTimecode() == (0, false)
  {
    Timecode.ReadsOneHour();
    ScenesChangedWithStream("01:00:00.000", Timecode.MillisPerHour);
  }

  /** A stream status without `recording` (nor the fractional `fps` and
      `strain`) decodes with `recording` false and both timecodes absent. */
  lemma StreamStatusFactoryExample()
    ensures UnmarshalEvent(Parsed(JObj(map["update-type" := JStr("StreamStatus"),
      "streaming" := JBool(true), "bytes-per-sec" := JNum(1234), "kbits-per-sec" := JNum(1),
      "preview-only" := JBool(false), "total-stream-time" := JNum(122),
      "num-total-frames" := JNum(200), "num-dropped-frames" := JNum(1)])))
      == Success(EventStreamStatus(true, false, false, 1234, 1, 122, 200, 1,
        RawEvent("StreamStatus", Absent, Absent)))
  {
    var m := map["update-type" := JStr("StreamStatus"),
      "streaming" := JBool(true), "bytes-per-sec" := JNum(1234), "kbits-per-sec" := JNum(1),
      "preview-only" := JBool(false), "total-stream-time" := JNum(122),
      "num-total-frames" := JNum(200), "num-dropped-frames" := JNum(1)];
    ReadEnvelopeOf(m, "StreamStatus", "", "");
    var body := EventStreamStatus(true, false, false, 1234, 1, 122, 200, 1, RawEvent("", 0, 0));
    assert BoolField(m, "streaming") == Success(true) && BoolField(m, "recording") == Success(false);
    assert BoolField(m, "preview-only") == Success(false) && IntField(m, "bytes-per-sec") == Success(1234);
    assert IntField(m, "kbits-per-sec") == Success(1) && IntField(m, "total-stream-time") == Success(122);
    assert IntField(m, "num-total-frames") == Success(200) && IntField(m, "num-dropped-frames") == Success(1);
    assert DecodeBody(StreamStatus, m) == Success(body);
    UnmarshalSucceeds(Parsed(JObj(m)), Envelope("StreamStatus", "", "", m), Absent, Absent, body);
  }

  /** A scene switch decodes with its scene name and both timecodes absent. */
  lemma SwitchScenesFactoryExample()
    ensures UnmarshalEvent(Parsed(JObj(map["update-type" := JStr("SwitchScenes"), "scene-name" := JStr("foo")])))
      == Success(EventSwitchScenes("foo", RawEvent("SwitchScenes", Absent, Absent)))
  {
  }

  /** A body member of the wrong JSON kind is a decoding error, not a zero value. */
  lemma WrongKindBodyRejected()
    ensures UnmarshalEvent(Parsed(JObj(map["update-type" := JStr("StreamStatus"), "recording" := JStr("yes")])))
      == Failure(JsonError(TypeMismatch("recording")))
  {
  }

  lemma ScenesChangedWithStream(text: string, d: int)
    requires text != "" && Timecode.ParseTC(text) == Timecode.Parsed(d, None)
    ensures var r := UnmarshalEvent(Parsed(JObj(map["update-type" := JStr("ScenesChanged"),
      "stream-timecode" := JStr(text)])));
      && r.Success? && r.value.EventScenesChanged?
      && r.value.raw.UpdateType() == "ScenesChanged"
      && r.value.raw.StreamTimecode() == (d, true)
      && r.value.raw.RecordTimecode() == (0, false)
  {
    var m := map["update-type" := JStr("ScenesChanged"), "stream-timecode" := JStr(text)];
    ReadEnvelopeOf(m, "ScenesChanged", text, "");
    var env := Envelope("ScenesChanged", text, "", m);
    UnmarshalSucceeds(Parsed(JObj(m)), env, d, Absent, EventScenesChanged(RawEvent("", 0, 0)));
  }
}

=== FILE: frames.dfy ===
/**
  Inbound frames as already-decoded JSON values, and the rules by which
  Go's `encoding/json` (and `mapstructure`) fill a struct field from them:
  a missing key or a `null` leaves the field at its zero value (`""`,
  `false`, `0`), a value of the wrong JSON kind is a decode error.
 */
module Frames {
  import opened Wrappers

  /** A decoded JSON value. Numbers are integers: the fractional fields of
      the protocol are not part of this model. */
  datatype Json =
    | JNull
    | JBool(b: bool)
    | JNum(n: int)
    | JStr(s: string)
    | JArr(items: seq<Json>)
    | JObj(members: map<string, Json>)

  /** One WebSocket text frame: either a JSON document or bytes that are not JSON. */
  datatype Frame = Parsed(doc: Json) | Unparseable

  datatype DecodeError =
    | SyntaxError              // the bytes are not JSON
    | NotAnObject              // a struct was expected
    | TypeMismatch(key: string) // the value under `key` has the wrong JSON kind
    | EmbeddedPointerUnset(key: string) // `key` belongs to a nil embedded pointer to an unexported struct

  /** The members a struct is decoded from: `null` decodes into an untouched struct. */
  function ObjectMembers(v: Json): (r: Result<map<string, Json>, DecodeError>)
    ensures r.Success? <==> v.JObj? || v.JNull?
    ensures v.JObj? ==> r == Success(v.members)
    ensures v.JNull? ==> r == Success(map[])
  {
    match v
    case JObj(m) => Success(m)
    case JNull => Success(map[])
    case _ => Failure(NotAnObject)
  }

  function FrameMembers(f: Frame): (r: Result<map<string, Json>, DecodeError>)
    ensures f.Unparseable? ==> r == Failure(SyntaxError)
    ensures f.Parsed? ==> r == ObjectMembers(f.doc)
  {
    match f
    case Unparseable => Failure(SyntaxError)
    case Parsed(v) => ObjectMembers(v)
  }

  /** `m` holds every member of `e`, with the same value, and possibly
      others: a decoder ignores the members no field is tagged with. */
  predicate Extends(m: map<string, Json>, e: map<string, Json>) {
    forall k :: k in e ==> k in m && m[k] == e[k]
  }

  /** A Go `string` field tagged `key`; `""` stands for a missing field. */
  function StringField(m: map<string, Json>, key: string): (r: Result<string, DecodeError>)
    ensures key !in m ==> r == Success("")
    ensures key in m && m[key].JStr? ==> r == Success(m[key].s)
    ensures key in m && m[key].JNull? ==> r == Success("")
    ensures r.Success? && r.value != "" ==> key in m && m[key] == JStr(r.value)
    ensures r.Failure? <==> key in m && !m[key].JStr? && !m[key].JNull?
    ensures r.Failure? ==> r.error == TypeMismatch(key)
  {
    if key !in m then Success("")
    else match m[key]
      case JStr(s) => Success(s)
      case JNull => Success("")
      case _ => Failure(TypeMismatch(key))
  }

  /** A Go `bool` field tagged `key`. */
  function BoolField(m: map<string, Json>, key: string): (r: Result<bool, DecodeError>)
    ensures key !in m ==> r == Success(false)
    ensures key in m && m[key].JBool? ==> r == Success(m[key].b)
    ensures key in m && m[key].JNull? ==> r == Success(false)
    ensures r.Success? && r.value ==> key in m && m[key] == JBool(true)
    ensures r.Failure? <==> key in m && !m[key].JBool? && !m[key].JNull?
    ensures r.Failure? ==> r.error == TypeMismatch(key)
  {
    if key !in m then Success(false)
    else match m[key]
      case JBool(b) => Success(b)
      case JNull => Success(false)
      case _ => Failure(TypeMismatch(key))
  }

  /** A Go `int` field tagged `key`. */
  function IntField(m: map<string, Json>, key: string): (r: Result<int, DecodeError>)
    ensures key !in m ==> r == Success(0)
    ensures key in m && m[key].JNum? ==> r == Success(m[key].n)
    ensures key in m && m[key].JNull? ==> r == Success(0)
    ensures r.Success? && r.value != 0 ==> key in m && m[key] == JNum(r.value)
    ensures r.Failure? <==> key in m && !m[key].JNum? && !m[key].JNull?
    ensures r.Failure? ==> r.error == TypeMismatch(key)
  {
    if key !in m then Success(0)
    else match m[key]
      case JNum(n) => Success(n)
      case JNull => Success(0)
      case _ => Failure(TypeMismatch(key))
  }

  /** The elements of a Go slice field tagged `key`: missing or `null` is the nil slice. */
  function ArrayField(m: map<string, Json>, key: string): (r: Result<seq<Json>, DecodeError>)
    ensures key !in m ==> r == Success([])
    ensures key in m && m[key].JArr? ==> r == Success(m[key].items)
    ensures key in m && m[key].JNull? ==> r == Success([])
    ensures r.Success? && r.value != [] ==> key in m && m[key] == JArr(r.value)
    ensures r.Failure? <==> key in m && !m[key].JArr? && !m[key].JNull?
    ensures r.Failure? ==> r.error == TypeMismatch(key)
  {
    if key !in m then Success([])
    else match m[key]
      case JArr(items) => Success(items)
      case JNull => Success([])
      case _ => Failure(TypeMismatch(key))
  }
}

=== FILE: generated.dfy ===
/**
  The generated request types of obs/obsws/requests_general.go. Six
  request types share one lifecycle: a constructor draws an id from the
  counter, `Send` hands the request to the connection once, and `Receive`
  waits for the typed reply, an error, or a timeout. One generic model
  covers all six.
 */
module Generated {
  import opened Wrappers
  import opened Frames
  import Decimal
  import Responses
  import Connection

  /** The six request types with their own parameters. */
  datatype RequestKind =
    | GetVersion
    | GetAuthRequired
    | Authenticate(auth: string)
    | SetHeartbeat(enable: bool)
    | SetFilenameFormatting(filenameFormatting: string)
    | GetFilenameFormatting
  {
    /** The fixed `request-type` of each constructor. */
    function TypeName(): string {
      match this
      case GetVersion => "GetVersion"
      case GetAuthRequired => "GetAuthRequired"
      case Authenticate(_) => "Authenticate"
      case SetHeartbeat(_) => "SetHeartbeat"
      case SetFilenameFormatting(_) => "SetFilenameFormatting"
      case GetFilenameFormatting => "GetFilenameFormatting"
    }
  }

  /** A request value: its type and parameters, its id and whether it has been sent. */
  datatype GenRequest = GenRequest(kind: RequestKind, id: string, sent: bool)

  /** `NewXRequest`: the fixed type, the next id from the counter, not sent.
      Also returns the counter after the draw. */
  function NewRequest(kind: RequestKind, counter: nat): (r: (GenRequest, nat))
    ensures r.0.kind == kind && !r.0.sent
    ensures r.1 == counter + 1 && Decimal.Parse(r.0.id) == Some(counter + 1)
  {
    var next := Connection.NextMessageId(counter);
    (GenRequest(kind, next.1, false), next.0)
  }

  /** Requests constructed one after another never share an id. */
  lemma ConsecutiveRequestsDiffer(first: RequestKind, second: RequestKind, counter: nat)
    ensures var a := NewRequest(first, counter);
      NewRequest(second, a.1).0.id != a.0.id
  {
    Connection.MessageIdsNeverRepeat(counter, counter + 1);
  }

  /** The object a request is written as: id, type and the type's own parameter. */
  function Wire(r: GenRequest): (w: map<string, Json>)
    ensures "message-id" in w && w["message-id"] == JStr(r.id)
    ensures "request-type" in w && w["request-type"] == JStr(r.kind.TypeName())
    ensures r.kind.Authenticate? ==> "auth" in w && w["auth"] == JStr(r.kind.auth)
    ensures r.kind.SetHeartbeat? ==> "enable" in w && w["enable"] == JBool(r.kind.enable)
    ensures r.kind.SetFilenameFormatting? ==>
      "filename-formatting" in w && w["filename-formatting"] == JStr(r.kind.filenameFormatting)
    ensures w.Keys == {"message-id", "request-type"}
      + (if r.kind.Authenticate? then {"auth"} else {})
      + (if r.kind.SetHeartbeat? then {"enable"} else {})
      + (if r.kind.SetFilenameFormatting? then {"filename-formatting"} else {})
  {
    var base := map["message-id" := JStr(r.id), "request-type" := JStr(r.kind.TypeName())];
    match r.kind
    case Authenticate(auth) => base["auth" := JStr(auth)]
    case SetHeartbeat(enable) => base["enable" := JBool(enable)]
    case SetFilenameFormatting(format) => base["filename-formatting" := JStr(format)]
    case _ => base
  }

  /** The written object determines the request's type, parameters and id:
      the `sent` flag is the only part not on the wire. */
  lemma WireDeterminesRequest(a: GenRequest, b: GenRequest)
    requires Wire(a) == Wire(b)
    ensures a.kind == b.kind && a.id == b.id
  {
    assert Wire(a)["request-type"] == Wire(b)["request-type"];
    assert a.kind.TypeName() == b.kind.TypeName();
    match a.kind
    case Authenticate(_) => assert Wire(a)["auth"] == Wire(b)["auth"];
    case SetHeartbeat(_) => assert Wire(a)["enable"] == Wire(b)["enable"];
    case SetFilenameFormatting(_) =>
      assert Wire(a)["filename-formatting"] == Wire(b)["filename-formatting"];
    case _ =>
  }

  /** What the generated code reports. */
  datatype GenError =
    | AlreadySent
    | NotSent
    | ReceiveTimeout
    | TransportFailed(text: string)       // `sendRequest`'s error
    | Undecodable(cause: DecodeError)     // `mapToStruct` failed
    | StatusFailed(text: string)          // `errors.New(resp.Error())`

  /** The typed replies; floating-point fields are not modelled. */
  datatype Reply =
    | VersionReply(obsWebsocketVersion: string, obsStudioVersion: string,
        availableRequests: string, base: Responses.ResponseBase)
    | AuthRequiredReply(authRequired: bool, challenge: string, salt: string,
        base: Responses.ResponseBase)
    | PlainReply(base: Responses.ResponseBase)
    | FilenameFormattingReply(filename: string, base: Responses.ResponseBase)

  /** The reply type each request type decodes into. */
  predicate ReplyFits(kind: RequestKind, reply: Reply) {
    match kind
    case GetVersion => reply.VersionReply?
    case GetAuthRequired => reply.AuthRequiredReply?
    case GetFilenameFormatting => reply.FilenameFormattingReply?
    case _ => reply.PlainReply?
  }

  /** `mapToStruct` into the kind's response struct. */
  function DecodeReply(kind: RequestKind, m: map<string, Json>): (r: Result<Reply, DecodeError>)
    ensures r.Success? ==> ReplyFits(kind, r.value)
    ensures r.Success? ==> Responses.DecodeBase(m) == Success(r.value.base)
    ensures Responses.DecodeBase(m).Failure? ==> r.Failure?
  {
    var base :- Responses.DecodeBase(m);
    match kind
    case GetVersion =>
      var ws :- StringField(m, "obs-websocket-version");
      var studio :- StringField(m, "obs-studio-version");
      var available :- StringField(m, "available-requests");
      Success(VersionReply(ws, studio, available, base))
    case GetAuthRequired =>
      var required :- BoolField(m, "authRequired");
      var challenge :- StringField(m, "challenge");
      var salt :- StringField(m, "salt");
      Success(AuthRequiredReply(required, challenge, salt, base))
    case GetFilenameFormatting =>
      var filename :- StringField(m, "filename-formatting");
      Success(FilenameFormattingReply(filename, base))
    case _ => Success(PlainReply(base))
  }

  /** A reply as the server writes it. */
  function EncodeReply(reply: Reply): map<string, Json> {
    var base := Responses.EncodeBase(reply.base);
    match reply
    case VersionReply(ws, studio, available, _) =>
      base["obs-websocket-version" := JStr(ws)]["obs-studio-version" := JStr(studio)]
        ["available-requests" := JStr(available)]
    case AuthRequiredReply(required, challenge, salt, _) =>
      base["authRequired" := JBool(required)]["challenge" := JStr(challenge)]["salt" := JStr(salt)]
    case PlainReply(_) => base
    case FilenameFormattingReply(filename, _) => base["filename-formatting" := JStr(filename)]
  }

  /** Decoding any reply the server writes, for the request type it
      answers, gives the reply back, whatever members the server adds
      (every GetVersion reply also carries the fractional `version`). */
  lemma DecodeWrittenReply(kind: RequestKind, reply: Reply, m: map<string, Json>)
    requires ReplyFits(kind, reply) && Extends(m, EncodeReply(reply))
    ensures DecodeReply(kind, m) == Success(reply)
  {
    var e := EncodeReply(reply);
    assert "message-id" in e && "status" in e && "error" in e;
    Responses.DecodeBaseOf(m, reply.base);
    match reply
    case VersionReply(ws, studio, available, _) =>
      assert "obs-websocket-version" in e && "obs-studio-version" in e && "available-requests" in e;
      assert StringField(m, "obs-websocket-version") == Success(ws);
      assert StringField(m, "obs-studio-version") == Success(studio);
      assert StringField(m, "available-requests") == Success(available);
    case AuthRequiredReply(required, challenge, salt, _) =>
      assert "authRequired" in e && "challenge" in e && "salt" in e;
      assert BoolField(m, "authRequired") == Success(required);
      assert StringField(m, "challenge") == Success(challenge);
      assert StringField(m, "salt") == Success(salt);
    case PlainReply(_) =>
    case FilenameFormattingReply(filename, _) =>
      assert "filename-formatting" in e;
      assert StringField(m, "filename-formatting") == Success(filename);
  }

  /** The status the generated code compares against, exactly and case-sensitively. */
  const StatusOK := "ok"

  /** The work `Send`'s goroutine does on the message the connection
      delivers: a decode failure or a status other than `StatusOK` is an
      error, anything else the typed reply. */
  function Resolve(kind: RequestKind, m: map<string, Json>): (o: Result<Reply, GenError>)
    ensures o.Success? ==> DecodeReply(kind, m) == Success(o.value) && o.value.base.status == StatusOK
    ensures o.Failure? ==> o.error.Undecodable? || o.error.StatusFailed?
    ensures o.Failure? && o.error.Undecodable? ==> DecodeReply(kind, m) == Failure(o.error.cause)
    ensures o.Failure? && o.error.StatusFailed? ==>
      DecodeReply(kind, m).Success? && DecodeReply(kind, m).value.base.status != StatusOK
      && o.error.text == DecodeReply(kind, m).value.base.error
  {
    match DecodeReply(kind, m)
    case Failure(e) => Failure(Undecodable(e))
    case Success(reply) =>
      if reply.base.status != StatusOK then Failure(StatusFailed(reply.base.error)) else Success(reply)
  }

  /** A well-formed reply resolves to itself exactly when its status is
      `StatusOK`, and to an error carrying the server's message otherwise. */
  lemma ResolveWritten(kind: RequestKind, reply: Reply, m: map<string, Json>)
    requires ReplyFits(kind, reply) && Extends(m, EncodeReply(reply))
    ensures reply.base.status == StatusOK ==> Resolve(kind, m) == Success(reply)
    ensures reply.base.status != StatusOK ==> Resolve(kind, m) == Failure(StatusFailed(reply.base.error))
  {
    DecodeWrittenReply(kind, reply, m);
  }

  /** Unlike the multiplexed client, the comparison is exact: "OK" is an error here. */
  lemma UpperCaseOkRejected(kind: RequestKind, reply: Reply, m: map<string, Json>)
    requires ReplyFits(kind, reply) && Extends(m, EncodeReply(reply)) && reply.base.status == "OK"
    ensures Resolve(kind, m) == Failure(StatusFailed(reply.base.error))
    ensures reply.base.Err().None?
  {
    ResolveWritten(kind, reply, m);
    Responses.OkSpellings("OK");
  }

  /** The outcome of `Send`: the request afterwards, the id handed to
      `sendRequest` if it was called, and the error returned. */
  datatype SendResult = SendResult(request: GenRequest, submitted: Option<string>, err: Option<GenError>)

  /** `Send`. `transport` stands for `sendRequest`'s error, `None` when it succeeded. */
  function Send(r: GenRequest, transport: Option<string>): (s: SendResult)
    ensures r.sent ==> s == SendResult(r, None, Some(AlreadySent))
    ensures !r.sent ==> s.submitted == Some(r.id)
    ensures !r.sent && transport.Some? ==> s == SendResult(r, Some(r.id), Some(TransportFailed(transport.value)))
    ensures !r.sent && transport.None? ==> s.err.None? && s.request == r.(sent := true)
    ensures s.request.kind == r.kind && s.request.id == r.id
  {
    if r.sent then SendResult(r, None, Some(AlreadySent))
    else match transport
      case Some(text) => SendResult(r, Some(r.id), Some(TransportFailed(text)))
      case None => SendResult(r.(sent := true), Some(r.id), None)
  }

  /** A request goes to `sendRequest` at most once: after a successful
      `Send`, sending again is refused without calling it. */
  lemma SendOnce(r: GenRequest, first: Option<string>, second: Option<string>)
    requires !r.sent
    ensures var s := Send(r, first);
      s.err.None? ==> Send(s.request, second) == SendResult(s.request, None, Some(AlreadySent))
    ensures Send(r, first).err.Some? ==> !Send(r, first).request.sent
  {
  }

  /** `Receive`, as the set of results it may return. `delivered` is the
      message the connection hands to `Send`'s goroutine, `None` when none
      ever comes. With no deadline and nothing delivered the set is empty:
      `Receive` blocks forever. */
  function Receive(r: GenRequest, settings: Connection.Settings, delivered: Option<map<string, Json>>)
    : (outcomes: set<Result<Reply, GenError>>)
    ensures !r.sent ==> outcomes == {Failure(NotSent)}
    ensures r.sent && delivered.Some? ==> Resolve(r.kind, delivered.value) in outcomes
    ensures r.sent ==> forall o :: o in outcomes ==>
      (delivered.Some? && o == Resolve(r.kind, delivered.value))
      || (Connection.HasDeadline(settings) && o == Failure(ReceiveTimeout))
    ensures r.sent && Connection.HasDeadline(settings) ==> Failure(ReceiveTimeout) in outcomes
  {
    if !r.sent then {Failure(NotSent)}
    else
      (if delivered.Some? then {Resolve(r.kind, delivered.value)} else {})
      + (if Connection.HasDeadline(settings) then {Failure(ReceiveTimeout)} else {})
  }

  /** With the default timeout of 0 a sent request never times out, and
      waits for exactly what its reply resolves to. */
  lemma ZeroTimeoutNeverExpires(r: GenRequest, settings: Connection.Settings, m: map<string, Json>)
    requires r.sent && settings.receiveTimeout == 0
    ensures Receive(r, settings, Some(m)) == {Resolve(r.kind, m)}
    ensures Failure(ReceiveTimeout) !in Receive(r, settings, Some(m))
  {
  }

  /** After `SetReceiveTimeout(t)`, a sent request may time out exactly
      when `t` is not 0; with nothing delivered, it then has no other result. */
  lemma SetTimeoutGovernsReceive(r: GenRequest, settings: Connection.Settings, t: int)
    requires r.sent
    ensures Failure(ReceiveTimeout) in Receive(r, Connection.SetReceiveTimeout(settings, t), None) <==> t != 0
    ensures t != 0 ==> Receive(r, Connection.SetReceiveTimeout(settings, t), None) == {Failure(ReceiveTimeout)}
  {
  }

  /** The outcome of `SendReceive`: the caller's request afterwards, the id
      handed to `sendRequest` if it was called, and the possible results. */
  datatype SendReceiveResult = SendReceiveResult(
    caller: GenRequest, submitted: Option<string>, outcomes: set<Result<Reply, GenError>>)

  /** `SendReceive` as generated: the receiver is a value, so `Send` marks a
      copy as sent and the caller's request stays unsent. */
  function SendReceiveAsWritten(r: GenRequest, transport: Option<string>,
      settings: Connection.Settings, delivered: Option<map<string, Json>>): (s: SendReceiveResult)
    ensures s.caller == r
    ensures s.submitted == Send(r, transport).submitted
    ensures Send(r, transport).err.Some? ==> s.outcomes == {Failure(Send(r, transport).err.value)}
    ensures Send(r, transport).err.None? ==> s.outcomes == Receive(r.(sent := true), settings, delivered)
  {
    var copy := Send(r, transport);
    match copy.err
    case Some(e) => SendReceiveResult(r, copy.submitted, {Failure(e)})
    case None => SendReceiveResult(r, copy.submitted, Receive(copy.request, settings, delivered))
  }

  /** As generated, a second `SendReceive` on the same request is not
      refused: `sendRequest` is called again with the same id. */
  lemma SendReceiveAsWrittenResends(r: GenRequest, settings: Connection.Settings,
      d1: Option<map<string, Json>>, d2: Option<map<string, Json>>)
    requires !r.sent
    ensures var first := SendReceiveAsWritten(r, None, settings, d1);
      var second := SendReceiveAsWritten(first.caller, None, settings, d2);
      && first.submitted == Some(r.id) && second.submitted == Some(r.id)
      && Failure(AlreadySent) !in second.outcomes
  {
    var first := SendReceiveAsWritten(r, None, settings, d1);
    var second := SendReceiveAsWritten(first.caller, None, settings, d2);
    forall o | o in second.outcomes ensures o != Failure(AlreadySent) {
    }
  }

  /** As generated, the caller's own `Receive` after a successful
      `SendReceive` reports the request as never sent. */
  lemma ReceiveAfterSendReceiveAsWritten(r: GenRequest, settings: Connection.Settings,
      d: Option<map<string, Json>>)
    requires !r.sent
    ensures Receive(SendReceiveAsWritten(r, None, settings, d).caller, settings, d) == {Failure(NotSent)}
  {
  }

  /** `SendReceive` with the receiver the other methods' contracts call for:
      the caller's request is the one `Send` marked. */
  function SendReceive(r: GenRequest, transport: Option<string>,
      settings: Connection.Settings, delivered: Option<map<string, Json>>): (s: SendReceiveResult)
    ensures s.caller == Send(r, transport).request
    ensures s.submitted == Send(r, transport).submitted
    ensures Send(r, transport).err.Some? ==> s.outcomes == {Failure(Send(r, transport).err.value)}
    ensures Send(r, transport).err.None? ==> s.outcomes == Receive(s.caller, settings, delivered)
  {
    var sent := Send(r, transport);
    match sent.err
    case Some(e) => SendReceiveResult(sent.request, sent.submitted, {Failure(e)})
    case None => SendReceiveResult(sent.request, sent.submitted, Receive(sent.request, settings, delivered))
  }

  /** Corrected, a second `SendReceive` is refused with `ErrAlreadySent` and
      nothing is sent again, while the caller's `Receive` still waits for the reply. */
  lemma SendReceiveSendsOnce(r: GenRequest, settings: Connection.Settings,
      d1: Option<map<string, Json>>, d2: Option<map<string, Json>>)
    requires !r.sent
    ensures var first := SendReceive(r, None, settings, d1);
      var second := SendReceive(first.caller, None, settings, d2);
      && first.submitted == Some(r.id) && first.caller.sent
      && second.submitted.None? && second.outcomes == {Failure(AlreadySent)}
      && Failure(NotSent) !in Receive(first.caller, settings, d1)
  {
    var first := SendReceive(r, None, settings, d1);
    forall o | o in Receive(first.caller, settings, d1) ensures o != Failure(NotSent) {
    }
  }
}

=== FILE: multiplexer.dfy ===
/**
  The connection multiplexer of obs/client/ws/client.go as a sequential
  state machine. Each function is one outcome of the dispatch loop's
  `select` (a frame arrived, a request arrived, the request queue was
  closed) or one call of the client's API; the goroutines, locks and
  channels that interleave them in Go are reduced to the order in which
  steps are applied.
 */
module Multiplexer {
  import opened Wrappers
  import opened Frames
  import Decimal
  import opened Events
  import opened Responses
  import opened Requests

  /** `responseData`: where a pending request's reply goes and the shape it is decoded into. */
  datatype Entry = Entry(channel: ChannelId, shape: Shape)

  /** The client's event channel: not created yet, or created (and possibly closed). */
  datatype EventSlot = NoEventChannel | Created(channel: ChannelId, closed: bool)

  /** The state the dispatch loop and the API share. `requestUid` is the
      loop's counter, `pending` is `responsesMap`, `queueOpen` says whether
      the request queue still accepts submissions and the loop still runs. */
  datatype Client = Client(
    requestUid: nat,
    pending: map<string, Entry>,
    events: EventSlot,
    queueOpen: bool)

  /** Why the Go code panics; a panic ends the program. */
  datatype Panic =
    | EventUndecodable(error: EventError)
    | ResponseUnreadable(cause: DecodeError)
    | UnknownMessageId(id: string)
    | ResponseUndecodable(cause: DecodeError)
    | SendOnClosedChannel
    | CloseOfClosedChannel
    | CloseOfNilChannel

  /** What one step makes observable. */
  datatype Effect =
    | Sent(request: Request)                              // stamped and written on the socket
    | EventDelivered(channel: ChannelId, event: Event)
    | EventDropped(event: Event)                          // no one subscribed
    | UnknownEventLogged(eventType: string)
    | ResponseDelivered(channel: ChannelId, response: Response) // then the channel is closed
    | Panicked(reason: Panic)
    | FrameDiscarded                                      // the loop has ended
    | SubmitterBlocked                                    // a send on the nil queue never completes
    | ClientClosed(eventChannel: Option<ChannelId>)       // the event channel closed, if there was one
    | Subscribed(channel: ChannelId)

  datatype Step = Step(client: Client, effect: Effect)

  /** `id` is the decimal rendering of a counter value already handed out. */
  ghost predicate Issued(id: string, uid: nat) {
    var n := Decimal.Parse(id);
    n.Some? && 1 <= n.value <= uid
  }

  /** Every pending id was issued by the counter, and the event channel is
      closed only once the loop has ended. */
  ghost predicate Valid(c: Client) {
    && (forall id :: id in c.pending ==> Issued(id, c.requestUid))
    && (c.events.Created? && c.events.closed ==> !c.queueOpen)
  }

  /** `NewClient` once the socket is connected: nothing pending, no subscriber, the loop running. */
  function NewClient(): (c: Client)
    ensures Valid(c) && c.queueOpen && c.pending == map[] && c.events.NoEventChannel?
  {
    Client(0, map[], NoEventChannel, true)
  }

  /** The id the loop stamps on its `n`-th request: `fmt.Sprintf("%d", n)`. */
  function RequestId(n: nat): (id: string)
    ensures Decimal.Parse(id) == Some(n)
  {
    Decimal.ParseFormat(n);
    Decimal.Format(n)
  }

  /** `submitRequest` handing `r` to the loop with response channel `ch`, and
      the loop's request branch: the counter is incremented before use, the
      entry registered under the new id, and the same id stamped on the
      request that is written out. Once the loop has ended the queue is nil
      and the submitter blocks forever. */
  function Submit(c: Client, r: Request, ch: ChannelId): (s: Step)
    ensures !c.queueOpen ==> s == Step(c, SubmitterBlocked)
    ensures c.queueOpen ==>
      var id := RequestId(c.requestUid + 1);
      && s.effect == Sent(SetMessageID(SetResponseChannel(r, ch), id))
      && s.client.requestUid == c.requestUid + 1
      && s.client.pending == c.pending[id := Entry(ch, r.expected)]
      && s.client.events == c.events && s.client.queueOpen
  {
    if !c.queueOpen then Step(c, SubmitterBlocked)
    else
      var uid := c.requestUid + 1;
      var id := RequestId(uid);
      var withChannel := SetResponseChannel(r, ch);
      Step(c.(requestUid := uid, pending := c.pending[id := Entry(ch, withChannel.expected)]),
        Sent(SetMessageID(withChannel, id)))
  }

  /** The fresh id is never already pending, so accepting a request adds
      exactly one entry and keeps every other one. */
  lemma SubmitAddsOneEntry(c: Client, r: Request, ch: ChannelId)
    requires Valid(c) && c.queueOpen
    ensures var s := Submit(c, r, ch); var id := s.effect.request.messageId;
      && id !in c.pending
      && s.client.pending.Keys == c.pending.Keys + {id}
      && |s.client.pending| == |c.pending| + 1
      && (forall other :: other in c.pending ==> s.client.pending[other] == c.pending[other])
  {
    var id := RequestId(c.requestUid + 1);
    assert !Issued(id, c.requestUid);
  }

  /** The conditions under which `handleResponse` panics: an event that
      fails to decode for a reason other than "not an event" or an unknown
      type; a response whose base cannot be read; a response id with no
      pending entry; a response that does not decode into its entry's
      shape; and an event sent to an event channel `Close` has closed. */
  predicate Panics(c: Client, f: Frame) {
    var u := UnmarshalEvent(f);
    var b := ParseBase(f);
    || (u.Success? && c.events.Created? && c.events.closed)
    || (u.Failure? && !u.error.NotEventMessage? && !u.error.UnknownEventType?)
    || (u == Failure(NotEventMessage) && b.Failure?)
    || (u == Failure(NotEventMessage) && b.Success? && b.value.messageId !in c.pending)
    || (u == Failure(NotEventMessage) && b.Success? && b.value.messageId in c.pending
        && DecodeResponse(c.pending[b.value.messageId].shape, f).Failure?)
  }

  /** `handleResponse`: an event goes to the subscriber or is dropped, an
      unknown event type is only logged, any other event failure panics; a
      response must be readable and carry a pending id, is decoded into the
      shape registered for it, delivered once and its entry removed. */
  function HandleResponse(c: Client, f: Frame): (s: Step)
    ensures s.client.requestUid == c.requestUid
    ensures s.client.events == c.events && s.client.queueOpen == c.queueOpen
    ensures !s.effect.ResponseDelivered? ==> s.client == c
    ensures s.effect.EventDelivered? || s.effect.EventDropped?
      || s.effect.UnknownEventLogged? || s.effect.ResponseDelivered? || s.effect.Panicked?
    ensures s.effect.Panicked? <==> Panics(c, f)
    ensures UnmarshalEvent(f).Success? && c.events.NoEventChannel? ==>
      s.effect == EventDropped(UnmarshalEvent(f).value)
    ensures UnmarshalEvent(f).Success? && c.events.Created? && !c.events.closed ==>
      s.effect == EventDelivered(c.events.channel, UnmarshalEvent(f).value)
    ensures UnmarshalEvent(f).Failure? && UnmarshalEvent(f).error.UnknownEventType? ==>
      s.effect == UnknownEventLogged(UnmarshalEvent(f).error.eventType)
    ensures s.effect.EventDelivered? ==>
      c.events == Created(s.effect.channel, false) && UnmarshalEvent(f) == Success(s.effect.event)
    ensures s.effect.EventDropped? ==>
      c.events.NoEventChannel? && UnmarshalEvent(f) == Success(s.effect.event)
    ensures s.effect.UnknownEventLogged? ==>
      UnmarshalEvent(f) == Failure(UnknownEventType(s.effect.eventType))
    ensures s.effect.ResponseDelivered? ==>
      var id := s.effect.response.MessageId();
      && UnmarshalEvent(f) == Failure(NotEventMessage)
      && ParseBase(f) == Success(s.effect.response.base)
      && id in c.pending
      && c.pending[id] == Entry(s.effect.channel, s.effect.response.Shape())
      && s.client.pending == c.pending - {id}
  {
    match UnmarshalEvent(f)
    case Success(ev) =>
      (match c.events
       case NoEventChannel => Step(c, EventDropped(ev))
       case Created(ch, closed) =>
         if closed then Step(c, Panicked(SendOnClosedChannel)) else Step(c, EventDelivered(ch, ev)))
    case Failure(err) =>
      if err.UnknownEventType? then Step(c, UnknownEventLogged(err.eventType))
      else if !err.NotEventMessage? then Step(c, Panicked(EventUndecodable(err)))
      else match ParseBase(f)
        case Failure(e) => Step(c, Panicked(ResponseUnreadable(e)))
        case Success(base) =>
          if base.messageId !in c.pending then Step(c, Panicked(UnknownMessageId(base.messageId)))
          else
            var entry := c.pending[base.messageId];
            match DecodeResponse(entry.shape, f)
            case Failure(e) => Step(c, Panicked(ResponseUndecodable(e)))
            case Success(resp) =>
              Step(c.(pending := c.pending - {base.messageId}), ResponseDelivered(entry.channel, resp))
  }

  /** A frame reaching the loop; once the loop has ended, frames are discarded. */
  function FrameArrives(c: Client, f: Frame): (s: Step)
    ensures !c.queueOpen ==> s == Step(c, FrameDiscarded)
    ensures c.queueOpen ==> s == HandleResponse(c, f)
  {
    if c.queueOpen then HandleResponse(c, f) else Step(c, FrameDiscarded)
  }

  /** `Close`: closing the request queue ends the loop (which sets the queue
      to nil), then the event channel is closed if one was created. Pending
      requests are left waiting. A second `Close` closes a nil channel. */
  function Close(c: Client): (s: Step)
    ensures !c.queueOpen ==> s == Step(c, Panicked(CloseOfNilChannel))
    ensures c.queueOpen && !(c.events.Created? && c.events.closed) ==>
      && !s.client.queueOpen
      && s.client.pending == c.pending && s.client.requestUid == c.requestUid
      && s.effect == ClientClosed(if c.events.Created? then Some(c.events.channel) else None)
      && (c.events.Created? ==> s.client.events == Created(c.events.channel, true))
      && (c.events.NoEventChannel? ==> s.client.events.NoEventChannel?)
  {
    if !c.queueOpen then Step(c, Panicked(CloseOfNilChannel))
    else match c.events
      case NoEventChannel => Step(c.(queueOpen := false), ClientClosed(None))
      case Created(ch, closed) =>
        if closed then Step(c.(queueOpen := false), Panicked(CloseOfClosedChannel))
        else Step(c.(queueOpen := false, events := Created(ch, true)), ClientClosed(Some(ch)))
  }

  /** `EventChannel`: the existing channel when there is one, otherwise a
      new channel (`newChannel`) becomes the subscriber. */
  function EventChannel(c: Client, newChannel: ChannelId): (s: Step)
    ensures s.effect.Subscribed?
    ensures c.events.Created? ==> s == Step(c, Subscribed(c.events.channel))
    ensures c.events.NoEventChannel? ==>
      s == Step(c.(events := Created(newChannel, false)), Subscribed(newChannel))
  {
    match c.events
    case Created(ch, _) => Step(c, Subscribed(ch))
    case NoEventChannel => Step(c.(events := Created(newChannel, false)), Subscribed(newChannel))
  }

  /** Asking for the event channel twice yields one channel, and the second
      call changes nothing. */
  lemma EventChannelIdempotent(c: Client, newChannel1: ChannelId, newChannel2: ChannelId)
    ensures var first := EventChannel(c, newChannel1);
      EventChannel(first.client, newChannel2) == first
  {
  }

  datatype Input =
    | SubmitInput(request: Request, channel: ChannelId)
    | FrameInput(frame: Frame)
    | CloseInput
    | SubscribeInput(newChannel: ChannelId)

  function Apply(c: Client, i: Input): Step {
    match i
    case SubmitInput(r, ch) => Submit(c, r, ch)
    case FrameInput(f) => FrameArrives(c, f)
    case CloseInput => Close(c)
    case SubscribeInput(newChannel) => EventChannel(c, newChannel)
  }

  /** Every step keeps the client valid and never moves the counter back;
      only a submission moves it, by one. */
  lemma ApplyPreservesValid(c: Client, i: Input)
    requires Valid(c)
    ensures Valid(Apply(c, i).client)
    ensures Apply(c, i).client.requestUid >= c.requestUid
    ensures Apply(c, i).effect.Sent? ==>
      Apply(c, i).client.requestUid == c.requestUid + 1
      && Decimal.Parse(Apply(c, i).effect.request.messageId) == Some(c.requestUid + 1)
    ensures !Apply(c, i).effect.Sent? ==> Apply(c, i).client.requestUid == c.requestUid
  {
    var s := Apply(c, i);
    match i
    case SubmitInput(r, ch) =>
      if c.queueOpen {
        forall id | id in s.client.pending ensures Issued(id, s.client.requestUid) {
          if id in c.pending { assert Issued(id, c.requestUid); }
        }
      }
    case FrameInput(f) =>
    case CloseInput =>
    case SubscribeInput(newChannel) =>
  }

  /** The effects of a sequence of inputs, up to and including the first panic. */
  function Run(c: Client, inputs: seq<Input>): (effects: seq<Effect>)
    ensures |effects| <= |inputs|
    decreases |inputs|
  {
    if |inputs| == 0 then []
    else
      var s := Apply(c, inputs[0]);
      if s.effect.Panicked? then [s.effect] else [s.effect] + Run(s.client, inputs[1..])
  }

  /** The counter value carried by a `Sent` effect's id. */
  function SentNumber(e: Effect): int {
    if e.Sent? && Decimal.Parse(e.request.messageId).Some? then Decimal.Parse(e.request.messageId).value else -1
  }

  /** Along any run from a valid client, the ids stamped on requests are
      fresh numbers above the counter, strictly increasing, and so never repeat. */
  lemma {:induction false} SentIdsIncrease(c: Client, inputs: seq<Input>)
    requires Valid(c)
    ensures var t := Run(c, inputs);
      && (forall i :: 0 <= i < |t| && t[i].Sent? ==> SentNumber(t[i]) > c.requestUid)
      && (forall i, j :: 0 <= i < j < |t| && t[i].Sent? && t[j].Sent? ==> SentNumber(t[i]) < SentNumber(t[j]))
    decreases |inputs|
  {
    if |inputs| > 0 {
      var s := Apply(c, inputs[0]);
      ApplyPreservesValid(c, inputs[0]);
      if !s.effect.Panicked? {
        SentIdsIncrease(s.client, inputs[1..]);
        var t := Run(c, inputs);
        var tail := Run(s.client, inputs[1..]);
        assert t == [s.effect] + tail;
        assert var t := Run(s.client, inputs[1..]);
          (forall i :: 0 <= i < |t| && t[i].Sent? ==> SentNumber(t[i]) > s.client.requestUid);
        if s.effect.Sent? {
          assert SentNumber(t[0]) == c.requestUid + 1 == s.client.requestUid;
        }
        forall i | 0 < i < |t| && t[i].Sent? ensures SentNumber(t[i]) > s.client.requestUid {
          assert t[i] == tail[i - 1];
        }
      }
    }
  }

  /** Ids stamped at different points of a run are different strings. */
  lemma SentIdsDistinct(c: Client, inputs: seq<Input>, i: nat, j: nat)
    requires Valid(c)
    requires i < j < |Run(c, inputs)|
    requires Run(c, inputs)[i].Sent? && Run(c, inputs)[j].Sent?
    ensures Run(c, inputs)[i].request.messageId != Run(c, inputs)[j].request.messageId
  {
    SentIdsIncrease(c, inputs);
  }

  /** A response is delivered once: the same frame a second time names an id
      that is no longer pending, which panics. */
  lemma ResponseDeliveredOnce(c: Client, f: Frame)
    requires HandleResponse(c, f).effect.ResponseDelivered?
    ensures var s := HandleResponse(c, f);
      HandleResponse(s.client, f) == Step(s.client, Panicked(UnknownMessageId(s.effect.response.MessageId())))
  {
  }

  /** A readable response whose id is not pending is a panic, and leaves the client as it was. */
  lemma UnknownIdPanics(c: Client, f: Frame)
    requires UnmarshalEvent(f) == Failure(NotEventMessage)
    requires ParseBase(f).Success? && ParseBase(f).value.messageId !in c.pending
    ensures HandleResponse(c, f) == Step(c, Panicked(UnknownMessageId(ParseBase(f).value.messageId)))
  {
  }

  /** After `Close` nothing more is accepted: a submitter blocks, frames are
      discarded, and a second `Close` panics. */
  lemma NothingAcceptedAfterClose(c: Client, r: Request, ch: ChannelId, f: Frame)
    requires Valid(c) && c.queueOpen
    ensures var closed := Close(c).client;
      && Submit(closed, r, ch) == Step(closed, SubmitterBlocked)
      && FrameArrives(closed, f) == Step(closed, FrameDiscarded)
      && Close(closed).effect == Panicked(CloseOfNilChannel)
  {
  }

  /** A reply as the server writes it has no `update-type`, so the event
      decoder hands it on to the response path. */
  lemma ReplyIsNotEvent(resp: Response)
    ensures UnmarshalEvent(Parsed(Responses.Encode(resp))) == Failure(NotEventMessage)
  {
    var m := ObjectMembers(Responses.Encode(resp)).value;
    assert "update-type" !in m && "stream-timecode" !in m && "rec-timecode" !in m;
    NotEventIff(Parsed(Responses.Encode(resp)));
  }

  /** A submitted request and the server's reply to it. A bare reply
      reaches the submitter's channel and the pending table is back to what
      it was. A scene-list reply cannot be decoded into the registered
      `GetSceneListResponse`, so the loop panics and the entry stays. */
  lemma SubmitThenReply(c: Client, r: Request, ch: ChannelId, resp: Response)
    requires Valid(c) && c.queueOpen
    requires resp.Shape() == r.expected && resp.MessageId() == RequestId(c.requestUid + 1)
    ensures var s1 := Submit(c, r, ch);
      var s2 := FrameArrives(s1.client, Parsed(Responses.Encode(resp)));
      && s1.effect.Sent? && s1.effect.request.messageId == resp.MessageId()
      && s2.client.requestUid == c.requestUid + 1
      && (resp.BaseResponse? ==> s2.effect == ResponseDelivered(ch, resp) && s2.client.pending == c.pending)
      && (resp.SceneListResponse? ==>
            s2 == Step(s1.client, Panicked(ResponseUndecodable(EmbeddedPointerUnset("message-id")))))
  {
    var f := Parsed(Responses.Encode(resp));
    ReplyIsNotEvent(resp);
    DecodeEncoded(resp);
    DecodeEncodedAsWritten(resp);
    if resp.BaseResponse? {
      SubmitThenFrame(c, r, ch, f, resp);
    } else {
      SubmitThenUndecodable(c, r, ch, f, resp.base, EmbeddedPointerUnset("message-id"));
    }
  }

  lemma SubmitThenFrame(c: Client, r: Request, ch: ChannelId, f: Frame, resp: Response)
    requires Valid(c) && c.queueOpen
    requires resp.Shape() == r.expected && resp.MessageId() == RequestId(c.requestUid + 1)
    requires UnmarshalEvent(f) == Failure(NotEventMessage)
    requires DecodeResponse(resp.Shape(), f) == Success(resp)
    ensures var s1 := Submit(c, r, ch);
      var s2 := FrameArrives(s1.client, f);
      && s1.effect.Sent? && s1.effect.request.messageId == resp.MessageId()
      && s2.effect == ResponseDelivered(ch, resp)
      && s2.client.pending == c.pending
      && s2.client.requestUid == c.requestUid + 1
  {
    var id := RequestId(c.requestUid + 1);
    assert id !in c.pending by { assert !Issued(id, c.requestUid); }
    var entry := Entry(ch, r.expected);
    var client1 := c.(requestUid := c.requestUid + 1, pending := c.pending[id := entry]);
    assert Submit(c, r, ch).client == client1;
    DeliverPending(client1, f, resp, ch);
    RemoveAfterInsert(c.pending, id, entry);
  }

  /** A reply to the request just submitted that does not decode into the
      shape the request registered: the loop panics, the entry still pending. */
  lemma SubmitThenUndecodable(c: Client, r: Request, ch: ChannelId, f: Frame, b: ResponseBase, e: DecodeError)
    requires Valid(c) && c.queueOpen
    requires UnmarshalEvent(f) == Failure(NotEventMessage)
    requires ParseBase(f) == Success(b) && b.messageId == RequestId(c.requestUid + 1)
    requires DecodeResponse(r.expected, f) == Failure(e)
    ensures var s1 := Submit(c, r, ch);
      FrameArrives(s1.client, f) == Step(s1.client, Panicked(ResponseUndecodable(e)))
  {
    var id := RequestId(c.requestUid + 1);
    var client1 := c.(requestUid := c.requestUid + 1, pending := c.pending[id := Entry(ch, r.expected)]);
    assert Submit(c, r, ch).client == client1;
    assert client1.pending[id].shape == r.expected;
  }

  /** As written, no scene-list reply is ever delivered: a reply whose id is
      pending carries that id under `message-id`, and that key is what the
      registered `GetSceneListResponse` cannot take. */
  lemma SceneListNeverDelivered(c: Client, f: Frame)
    requires Valid(c)
    requires UnmarshalEvent(f) == Failure(NotEventMessage) && ParseBase(f).Success?
    requires ParseBase(f).value.messageId in c.pending
    requires c.pending[ParseBase(f).value.messageId].shape == SceneListShape
    ensures HandleResponse(c, f) == Step(c, Panicked(ResponseUndecodable(EmbeddedPointerUnset("message-id"))))
  {
    var id := ParseBase(f).value.messageId;
    assert Issued(id, c.requestUid);
    assert id != "";
    var m := FrameMembers(f).value;
    assert StringField(m, "message-id") == Success(id);
    assert "message-id" in m;
  }

  lemma RemoveAfterInsert(m: map<string, Entry>, k: string, v: Entry)
    requires k !in m
    ensures m[k := v] - {k} == m
  {
  }

  /** The response path of `handleResponse` when everything checks out. */
  lemma DeliverPending(c: Client, f: Frame, resp: Response, ch: ChannelId)
    requires UnmarshalEvent(f) == Failure(NotEventMessage)
    requires DecodeResponse(resp.Shape(), f) == Success(resp)
    requires resp.MessageId() in c.pending && c.pending[resp.MessageId()] == Entry(ch, resp.Shape())
    ensures FrameArrives(c, f) == (if c.queueOpen
      then Step(c.(pending := c.pending - {resp.MessageId()}), ResponseDelivered(ch, resp))
      else Step(c, FrameDiscarded))
  {
  }

  /** A scene-list request on a fresh client, answered with current scene
      "Main" and one scene "Main" without sources. As written the loop
      panics on the reply and the request stays pending; decoded as
      intended, the same frame is that reply and `GetSceneList` returns it. */
  lemma SceneListExample(ch: ChannelId)
    ensures var request := ForgeRequestWithExpectedResponse("GetSceneList", SceneListShape);
      var reply := SceneListResponse("Main", [Scene("Main", [])], ResponseBase("1", "ok", ""));
      var s1 := Submit(NewClient(), request, ch);
      var s2 := FrameArrives(s1.client, Parsed(Responses.Encode(reply)));
      && s1.effect.Sent? && s1.effect.request.messageId == "1"
      && s2 == Step(s1.client, Panicked(ResponseUndecodable(EmbeddedPointerUnset("message-id"))))
      && s2.client.pending == map["1" := Entry(ch, SceneListShape)]
      && DecodeResponseIntended(SceneListShape, Parsed(Responses.Encode(reply))) == Success(reply)
      && GetSceneList(Some(reply)) == Success(reply)
  {
    var reply := SceneListResponse("Main", [Scene("Main", [])], ResponseBase("1", "ok", ""));
    assert RequestId(1) == "1";
    SubmitThenReply(NewClient(), ForgeRequestWithExpectedResponse("GetSceneList", SceneListShape), ch, reply);
    DecodeEncoded(reply);
    assert reply.base.Err().None? by { OkSpellings("ok"); }
  }

  /** An event nobody subscribed to is dropped without touching the client,
      so a later subscriber starts from the same state and never sees it. */
  lemma UnsubscribedEventDropped(c: Client, ev: Event, newChannel: ChannelId)
    requires c.queueOpen && c.events.NoEventChannel? && ev.WellFormed()
    ensures var s := FrameArrives(c, Parsed(Events.Encode(ev)));
      && s == Step(c, EventDropped(ev))
      && EventChannel(s.client, newChannel) == EventChannel(c, newChannel)
  {
    UnmarshalEncoded(ev);
  }
}

=== FILE: requests.dfy ===
/**
  Requests of the multiplexed client (obs/client/ws/requests.go): how they
  are built, stamped with an id and written on the wire, and how a
  caller interprets what its response channel yields.
 */
module Requests {
  import opened Wrappers
  import opened Frames
  import opened Responses

  /** A response channel, identified by the submitter that created it. */
  type ChannelId = nat

  /** `requestBase`, with the `scene-name` of a `SetCurrentScene` request when there is one. */
  datatype Request = Request(
    messageId: string,
    requestType: string,
    channel: Option<ChannelId>,
    expected: Shape,
    sceneName: Option<string>)

  /** `setMessageID`: only the id changes. */
  function SetMessageID(r: Request, id: string): (s: Request)
    ensures s.messageId == id
    ensures s.requestType == r.requestType && s.channel == r.channel
    ensures s.expected == r.expected && s.sceneName == r.sceneName
  {
    r.(messageId := id)
  }

  /** `setResponseChannel`: only the channel changes. */
  function SetResponseChannel(r: Request, ch: ChannelId): (s: Request)
    ensures s.channel == Some(ch)
    ensures s.messageId == r.messageId && s.requestType == r.requestType
    ensures s.expected == r.expected && s.sceneName == r.sceneName
  {
    r.(channel := Some(ch))
  }

  /** `forgeRequest`: a request of type `name` with no id yet, expecting a bare response. */
  function ForgeRequest(name: string): (r: Request)
    ensures r.requestType == name && r.messageId == ""
    ensures r.expected == BaseShape
    ensures r.channel.None? && r.sceneName.None?
  {
    Request("", name, None, BaseShape, None)
  }

  /** `forgeRequestWithExpectedResponse`: records exactly the shape the caller supplies. */
  function ForgeRequestWithExpectedResponse(name: string, shape: Shape): (r: Request)
    ensures r.requestType == name && r.messageId == ""
    ensures r.expected == shape
    ensures r.channel.None? && r.sceneName.None?
  {
    Request("", name, None, shape, None)
  }

  /** `forgeSetCurrentScene`. */
  function ForgeSetCurrentScene(name: string): (r: Request)
    ensures r.requestType == "SetCurrentScene" && r.sceneName == Some(name)
    ensures r.messageId == "" && r.expected == BaseShape && r.channel.None?
  {
    Request("", "SetCurrentScene", None, BaseShape, Some(name))
  }

  /** The JSON object a request is sent as: its exported, tagged fields only. */
  function Wire(r: Request): (w: map<string, Json>)
    ensures "message-id" in w && w["message-id"] == JStr(r.messageId)
    ensures "request-type" in w && w["request-type"] == JStr(r.requestType)
    ensures "scene-name" in w <==> r.sceneName.Some?
    ensures r.sceneName.Some? ==> w["scene-name"] == JStr(r.sceneName.value)
    ensures w.Keys == {"message-id", "request-type"} + (if r.sceneName.Some? then {"scene-name"} else {})
  {
    var base := map["message-id" := JStr(r.messageId), "request-type" := JStr(r.requestType)];
    match r.sceneName
    case None => base
    case Some(name) => base["scene-name" := JStr(name)]
  }

  /** Stamping an id changes the wire object in its `message-id` member and nowhere else. */
  lemma StampChangesOnlyWireId(r: Request, id: string)
    ensures Wire(SetMessageID(r, id)) == Wire(r)["message-id" := JStr(id)]
  {
  }

  /** What a caller of the multiplexed client can be told. */
  datatype ClientError =
    | ChannelClosed
    | StatusError(text: string)
    | UnexpectedResponse(response: Response)
  {
    function Message(): string
      requires !UnexpectedResponse?
    {
      match this
      case ChannelClosed => "obsws: internal error, response channel closed without response"
      case StatusError(text) => text
    }
  }

  /** The result logic of `submitRequest`, given what the response channel
      yielded: a response, or `None` when it was closed without one. */
  function SubmitResult(delivered: Option<Response>): (r: Result<Response, ClientError>)
    ensures delivered.None? ==> r == Failure(ChannelClosed)
    ensures r.Success? ==> delivered == Some(r.value) && r.value.base.Err().None?
    ensures delivered.Some? && delivered.value.base.Err().Some? ==>
      r == Failure(StatusError(delivered.value.base.Err().value))
  {
    match delivered
    case None => Failure(ChannelClosed)
    case Some(resp) =>
      match resp.base.Err()
      case Some(text) => Failure(StatusError(text))
      case None => Success(resp)
  }

  /** A delivered response is handed back exactly when its status spells "ok". */
  lemma SubmitSucceedsIffOk(resp: Response)
    ensures SubmitResult(Some(resp)) == Success(resp) <==> resp.base.status in OkStatuses
    ensures SubmitResult(Some(resp)).Failure? ==> SubmitResult(Some(resp)).error.StatusError?
  {
    OkSpellings(resp.base.status);
  }

  /** The result logic of `GetSceneList`: submit errors pass through, a
      response of another shape is an unexpected-response error. */
  function GetSceneList(delivered: Option<Response>): (r: Result<Response, ClientError>)
    ensures r.Success? ==> r.value.SceneListResponse? && SubmitResult(delivered) == Success(r.value)
    ensures SubmitResult(delivered).Failure? ==> r == SubmitResult(delivered)
    ensures r.Failure? && r.error.UnexpectedResponse? ==>
      SubmitResult(delivered) == Success(r.error.response) && !r.error.response.SceneListResponse?
  {
    var resp :- SubmitResult(delivered);
    if resp.SceneListResponse? then Success(resp) else Failure(UnexpectedResponse(resp))
  }

  /** A reply decoded into the shape `GetSceneList` registers is never unexpected. */
  lemma SceneListShapeNeverUnexpected(delivered: Option<Response>)
    requires delivered.Some? ==> delivered.value.Shape() == SceneListShape
    ensures GetSceneList(delivered).Failure? ==> !GetSceneList(delivered).error.UnexpectedResponse?
  {
  }

  /** The result logic of `SetCurrentScene`: `submitRequest`'s error, the response discarded. */
  function SetCurrentScene(delivered: Option<Response>): (err: Option<ClientError>)
    ensures err.None? <==> SubmitResult(delivered).Success?
    ensures err.Some? ==> SubmitResult(delivered) == Failure(err.value)
  {
    match SubmitResult(delivered)
    case Success(_) => None
    case Failure(e) => Some(e)
  }

  /** Switching scenes succeeds exactly when the server answers with a
      spelling of "ok"; otherwise the caller sees the server's status and
      message, or the internal error when no answer came. */
  lemma SetCurrentSceneOutcome(delivered: Option<Response>)
    ensures delivered.None? ==> SetCurrentScene(delivered) == Some(ChannelClosed)
    ensures delivered.Some? ==>
      (SetCurrentScene(delivered).None? <==> delivered.value.base.status in OkStatuses)
    ensures delivered.Some? && delivered.value.base.status !in OkStatuses ==>
      var b := delivered.value.base;
      SetCurrentScene(delivered) == Some(StatusError("obsws: status:" + b.status + " error:" + b.error))
  {
    if delivered.Some? {
      OkSpellings(delivered.value.base.status);
    }
  }
}

=== FILE: responses.dfy ===
/**
  Response envelopes (obs/client/ws/responses.go): the status check with
  its error text, and the two response shapes the client decodes a reply
  into.
 */
module Responses {
  import opened Wrappers
  import opened Frames

  /** The Kelvin sign, which Go's `strings.ToLower` maps to the ASCII `k`. */
  const KelvinSign: char := '\U{212A}'

  /** Lower-casing of one character: the ASCII capitals, and the one
      non-ASCII letter whose lower case is an ASCII letter. */
  function LowerChar(c: char): char {
    if 'A' <= c <= 'Z' then (c as int - 'A' as int + 'a' as int) as char
    else if c == KelvinSign then 'k'
    else c
  }

  /** The statuses that lower-case to "ok". */
  const OkStatuses: set<string> := {"ok", "Ok", "oK", "OK", ['o', KelvinSign], ['O', KelvinSign]}

  /** `strings.ToLower`, restricted to the letters above. */
  function ToLower(s: string): (r: string)
    ensures |r| == |s|
    ensures forall i :: 0 <= i < |s| ==> r[i] == LowerChar(s[i])
  {
    seq(|s|, i requires 0 <= i < |s| => LowerChar(s[i]))
  }

  /** The fields common to every response. */
  datatype ResponseBase = ResponseBase(messageId: string, status: string, error: string) {
    /** `error()`: nothing when the status reads "ok" in any letter case,
        otherwise the status and the server's message, verbatim. */
    function Err(): (r: Option<string>)
      ensures r.None? <==> ToLower(status) == "ok"
      ensures r.Some? ==> r.value == "obsws: status:" + status + " error:" + error
    {
      if ToLower(status) == "ok" then None
      else Some("obsws: status:" + status + " error:" + error)
    }
  }

  /** Exactly six spellings of "ok" are accepted: any letter case, and the
      Kelvin sign in place of the `k`. */
  lemma OkSpellings(status: string)
    ensures ToLower(status) == "ok" <==> status in OkStatuses
  {
    if ToLower(status) == "ok" {
      assert |status| == 2;
      assert LowerChar(status[0]) == 'o' && LowerChar(status[1]) == 'k';
      assert status[0] in {'o', 'O'} && status[1] in {'k', 'K', KelvinSign};
      assert status == [status[0], status[1]];
    }
  }

  /** Every status that is not a spelling of "ok" is an error, empty or missing included. */
  lemma NonOkIsError(base: ResponseBase)
    requires base.status !in OkStatuses
    ensures base.Err().Some?
    ensures base.status == "" ==> base.Err() == Some("obsws: status: error:" + base.error)
  {
    OkSpellings(base.status);
    assert "obsws: status:" + "" + " error:" == "obsws: status: error:";
  }

  /** The server's error message ends the error text unchanged. */
  lemma ErrorCarriesServerMessage(base: ResponseBase)
    requires base.Err().Some?
    ensures var text := base.Err().value;
      |text| >= |base.error| && text[|text| - |base.error|..] == base.error
  {
  }

  datatype Source = Source(sourceType: string)

  datatype Scene = Scene(name: string, sources: seq<Source>)

  /** The shape a request expects its reply to be decoded into. */
  datatype Shape = BaseShape | SceneListShape

  /** A decoded reply. Source volumes are fractional and not modelled. */
  datatype Response =
    | BaseResponse(base: ResponseBase)
    | SceneListResponse(currentScene: string, scenes: seq<Scene>, base: ResponseBase)
  {
    function Shape(): Shape {
      if BaseResponse? then BaseShape else SceneListShape
    }

    function MessageId(): string {
      base.messageId
    }
  }

  /** The base fields, decoded from the frame's members. */
  function DecodeBase(m: map<string, Json>): (r: Result<ResponseBase, DecodeError>)
    ensures r.Success? <==>
      StringField(m, "message-id").Success? && StringField(m, "status").Success?
      && StringField(m, "error").Success?
    ensures r.Success? ==> StringField(m, "message-id") == Success(r.value.messageId)
    ensures r.Success? ==> StringField(m, "status") == Success(r.value.status)
    ensures r.Success? ==> StringField(m, "error") == Success(r.value.error)
  {
    var id :- StringField(m, "message-id");
    var status :- StringField(m, "status");
    var error :- StringField(m, "error");
    Success(ResponseBase(id, status, error))
  }

  /** A frame read as a bare `responseBase`. */
  function ParseBase(f: Frame): (r: Result<ResponseBase, DecodeError>)
    ensures r.Success? ==> FrameMembers(f).Success? && r == DecodeBase(FrameMembers(f).value)
  {
    var m :- FrameMembers(f);
    DecodeBase(m)
  }

  function DecodeSource(v: Json): (r: Result<Source, DecodeError>) {
    var m :- ObjectMembers(v);
    var t :- StringField(m, "type");
    Success(Source(t))
  }

  function DecodeSources(items: seq<Json>): (r: Result<seq<Source>, DecodeError>)
    ensures r.Success? ==> |r.value| == |items|
  {
    if |items| == 0 then Success([])
    else
      var first :- DecodeSource(items[0]);
      var rest :- DecodeSources(items[1..]);
      Success([first] + rest)
  }

  function DecodeScene(v: Json): (r: Result<Scene, DecodeError>) {
    var m :- ObjectMembers(v);
    var name :- StringField(m, "name");
    var sources :- ArrayField(m, "sources");
    var decoded :- DecodeSources(sources);
    Success(Scene(name, decoded))
  }

  function DecodeScenes(items: seq<Json>): (r: Result<seq<Scene>, DecodeError>)
    ensures r.Success? ==> |r.value| == |items|
  {
    if |items| == 0 then Success([])
    else
      var first :- DecodeScene(items[0]);
      var rest :- DecodeScenes(items[1..]);
      Success([first] + rest)
  }

  /** A reply decoded into the shape its request registered, as the
      multiplexer intends it: the result has that shape and carries the same
      base fields as `ParseBase` reads. */
  function DecodeResponseIntended(shape: Shape, f: Frame): (r: Result<Response, DecodeError>)
    ensures r.Success? ==> r.value.Shape() == shape
    ensures r.Success? ==> ParseBase(f) == Success(r.value.base)
    ensures ParseBase(f).Failure? ==> r.Failure?
  {
    var m :- FrameMembers(f);
    var base :- DecodeBase(m);
    match shape
    case BaseShape => Success(BaseResponse(base))
    case SceneListShape =>
      var current :- StringField(m, "current-scene");
      var items :- ArrayField(m, "scenes");
      var scenes :- DecodeScenes(items);
      Success(SceneListResponse(current, scenes, base))
  }

  /** `json.Unmarshal(frame, &(respData.rType))` as written. A bare reply
      decodes as intended. `GetSceneListResponse` reaches its base fields
      only through an embedded pointer to the unexported `responseBase`,
      which is nil in the registered value and which the decoder may not
      allocate: any of the three base keys in the frame is an error. */
  function DecodeResponse(shape: Shape, f: Frame): (r: Result<Response, DecodeError>)
    ensures shape == BaseShape ==> r == DecodeResponseIntended(BaseShape, f)
    ensures shape == SceneListShape && FrameMembers(f).Success? ==>
      var m := FrameMembers(f).value;
      ("message-id" in m || "status" in m || "error" in m) ==> r.Failure? && r.error.EmbeddedPointerUnset?
    ensures r.Success? ==> r == DecodeResponseIntended(shape, f)
    ensures r.Success? ==> r.value.Shape() == shape && ParseBase(f) == Success(r.value.base)
    ensures ParseBase(f).Failure? ==> r.Failure?
  {
    match shape
    case BaseShape => DecodeResponseIntended(shape, f)
    case SceneListShape =>
      var m :- FrameMembers(f);
      if "message-id" in m then Failure(EmbeddedPointerUnset("message-id"))
      else if "status" in m then Failure(EmbeddedPointerUnset("status"))
      else if "error" in m then Failure(EmbeddedPointerUnset("error"))
      else DecodeResponseIntended(shape, f)
  }

  /** `messageID()` of a decoded reply is the frame's `message-id`, unchanged. */
  lemma MessageIdIsFrameId(shape: Shape, f: Frame)
    requires DecodeResponse(shape, f).Success?
    ensures FrameMembers(f).Success?
    ensures StringField(FrameMembers(f).value, "message-id") == Success(DecodeResponse(shape, f).value.MessageId())
  {
  }

  /** A reply of the base shape is exactly what `ParseBase` reads. */
  lemma BaseShapeIsParseBase(f: Frame)
    ensures DecodeResponse(BaseShape, f) == (match ParseBase(f)
      case Success(b) => Success(BaseResponse(b))
      case Failure(e) => Failure(e))
  {
  }

  /** Replies as the server writes them: the inverse of the decoders above. */
  function EncodeSource(s: Source): Json {
    JObj(map["type" := JStr(s.sourceType)])
  }

  function EncodeSources(sources: seq<Source>): (r: seq<Json>)
    ensures |r| == |sources|
  {
    if |sources| == 0 then [] else [EncodeSource(sources[0])] + EncodeSources(sources[1..])
  }

  function EncodeScene(s: Scene): Json {
    JObj(map["name" := JStr(s.name), "sources" := JArr(EncodeSources(s.sources))])
  }

  function EncodeScenes(scenes: seq<Scene>): (r: seq<Json>)
    ensures |r| == |scenes|
  {
    if |scenes| == 0 then [] else [EncodeScene(scenes[0])] + EncodeScenes(scenes[1..])
  }

  function EncodeBase(b: ResponseBase): map<string, Json> {
    map["message-id" := JStr(b.messageId), "status" := JStr(b.status), "error" := JStr(b.error)]
  }

  /** A reply as the server writes it. */
  function Encode(r: Response): Json {
    match r
    case BaseResponse(b) => JObj(EncodeBase(b))
    case SceneListResponse(current, scenes, b) =>
      JObj(EncodeBase(b)["current-scene" := JStr(current)]["scenes" := JArr(EncodeScenes(scenes))])
  }

  /** `items` are the objects the server wrote for `sources`: each holds the
      members `EncodeSource` writes and possibly others, such as `volume`. */
  predicate WritesSources(items: seq<Json>, sources: seq<Source>) {
    |items| == |sources|
    && forall i :: 0 <= i < |items| ==> items[i].JObj? && Extends(items[i].members, EncodeSource(sources[i]).members)
  }

  /** `v` is an object the server wrote for scene `s`, possibly with more members. */
  predicate WritesScene(v: Json, s: Scene) {
    v.JObj? && "name" in v.members && v.members["name"] == JStr(s.name)
    && "sources" in v.members && v.members["sources"].JArr?
    && WritesSources(v.members["sources"].items, s.sources)
  }

  predicate WritesScenes(items: seq<Json>, scenes: seq<Scene>) {
    |items| == |scenes| && forall i :: 0 <= i < |items| ==> WritesScene(items[i], scenes[i])
  }

  /** `m` are the members of a reply the server wrote for `r`: the encoding
      of `r`, within which the server may add members of its own. */
  predicate Writes(m: map<string, Json>, r: Response) {
    Extends(m, EncodeBase(r.base))
    && (r.SceneListResponse? ==>
      "current-scene" in m && m["current-scene"] == JStr(r.currentScene)
      && "scenes" in m && m["scenes"].JArr? && WritesScenes(m["scenes"].items, r.scenes))
  }

  /** Any list of source objects the server writes decodes back, whatever
      else the objects carry. */
  lemma {:induction false} SourcesRoundTrip(items: seq<Json>, sources: seq<Source>)
    requires WritesSources(items, sources)
    ensures DecodeSources(items) == Success(sources)
    decreases |sources|
  {
    if |sources| > 0 {
      var m := items[0].members;
      assert Extends(m, EncodeSource(sources[0]).members);
      assert "type" in EncodeSource(sources[0]).members;
      assert StringField(m, "type") == Success(sources[0].sourceType);
      assert DecodeSource(items[0]) == Success(sources[0]);
      assert WritesSources(items[1..], sources[1..]) by {
        forall i | 0 <= i < |items[1..]|
          ensures items[1..][i].JObj? && Extends(items[1..][i].members, EncodeSource(sources[1..][i]).members)
        {
          assert items[1..][i] == items[i + 1] && sources[1..][i] == sources[i + 1];
        }
      }
      SourcesRoundTrip(items[1..], sources[1..]);
      assert [sources[0]] + sources[1..] == sources;
    }
  }

  /** A scene object the server writes decodes back. */
  lemma SceneRoundTrip(v: Json, s: Scene)
    requires WritesScene(v, s)
    ensures DecodeScene(v) == Success(s)
  {
    var m := v.members;
    assert ObjectMembers(v) == Success(m);
    assert StringField(m, "name") == Success(s.name);
    assert ArrayField(m, "sources") == Success(m["sources"].items);
    SourcesRoundTrip(m["sources"].items, s.sources);
  }

  /** Any list of scene objects the server writes decodes back. */
  lemma {:induction false} ScenesRoundTrip(items: seq<Json>, scenes: seq<Scene>)
    requires WritesScenes(items, scenes)
    ensures DecodeScenes(items) == Success(scenes)
    decreases |scenes|
  {
    if |scenes| > 0 {
      SceneRoundTrip(items[0], scenes[0]);
      assert WritesScenes(items[1..], scenes[1..]) by {
        forall i | 0 <= i < |items[1..]| ensures WritesScene(items[1..][i], scenes[1..][i]) {
          assert items[1..][i] == items[i + 1] && scenes[1..][i] == scenes[i + 1];
        }
      }
      ScenesRoundTrip(items[1..], scenes[1..]);
      assert [scenes[0]] + scenes[1..] == scenes;
    }
  }

  /** The exact encoding is one of the replies the server may write. */
  lemma {:induction false} EncodeSourcesWrites(sources: seq<Source>)
    ensures WritesSources(EncodeSources(sources), sources)
    decreases |sources|
  {
    if |sources| > 0 {
      EncodeSourcesWrites(sources[1..]);
      var items := EncodeSources(sources);
      forall i | 0 <= i < |items|
        ensures items[i].JObj? && Extends(items[i].members, EncodeSource(sources[i]).members)
      {
        if i > 0 {
          assert items[i] == EncodeSources(sources[1..])[i - 1] && sources[i] == sources[1..][i - 1];
        }
      }
    }
  }

  lemma {:induction false} EncodeScenesWrites(scenes: seq<Scene>)
    ensures WritesScenes(EncodeScenes(scenes), scenes)
    decreases |scenes|
  {
    if |scenes| > 0 {
      EncodeScenesWrites(scenes[1..]);
      EncodeSourcesWrites(scenes[0].sources);
      var items := EncodeScenes(scenes);
      forall i | 0 <= i < |items| ensures WritesScene(items[i], scenes[i]) {
        if i > 0 {
          assert items[i] == EncodeScenes(scenes[1..])[i - 1] && scenes[i] == scenes[1..][i - 1];
        }
      }
    }
  }

  lemma EncodeWrites(r: Response)
    ensures Writes(Encode(r).members, r)
  {
    if r.SceneListResponse? {
      EncodeScenesWrites(r.scenes);
    }
  }

  lemma DecodeBaseOf(m: map<string, Json>, b: ResponseBase)
    requires "message-id" in m && m["message-id"] == JStr(b.messageId)
    requires "status" in m && m["status"] == JStr(b.status)
    requires "error" in m && m["error"] == JStr(b.error)
    ensures DecodeBase(m) == Success(b)
  {
  }

  /** Decoding any reply the server writes for `r`, into `r`'s own shape,
      gives `r` back, whatever members the server adds: the intended
      decoder inverts the server's encoding. */
  lemma DecodeWritten(r: Response, m: map<string, Json>)
    requires Writes(m, r)
    ensures DecodeResponseIntended(r.Shape(), Parsed(JObj(m))) == Success(r)
  {
    assert "message-id" in EncodeBase(r.base) && "status" in EncodeBase(r.base) && "error" in EncodeBase(r.base);
    DecodeBaseOf(m, r.base);
    if r.SceneListResponse? {
      assert StringField(m, "current-scene") == Success(r.currentScene);
      assert ArrayField(m, "scenes") == Success(m["scenes"].items);
      ScenesRoundTrip(m["scenes"].items, r.scenes);
    }
  }

  /** The exact encoding decodes back, as one instance of `DecodeWritten`. */
  lemma DecodeEncoded(r: Response)
    ensures DecodeResponseIntended(r.Shape(), Parsed(Encode(r))) == Success(r)
  {
    EncodeWrites(r);
    DecodeWritten(r, Encode(r).members);
  }

  /** As written, any bare reply the server writes decodes back, while
      every scene-list reply fails on its `message-id`, which no reply lacks. */
  lemma DecodeWrittenAsWritten(r: Response, m: map<string, Json>)
    requires Writes(m, r)
    ensures r.BaseResponse? ==> DecodeResponse(BaseShape, Parsed(JObj(m))) == Success(r)
    ensures r.SceneListResponse? ==>
      DecodeResponse(SceneListShape, Parsed(JObj(m))) == Failure(EmbeddedPointerUnset("message-id"))
  {
    assert "message-id" in EncodeBase(r.base);
    if r.BaseResponse? {
      DecodeWritten(r, m);
    }
  }

  /** The exact encoding, as one instance of `DecodeWrittenAsWritten`. */
  lemma DecodeEncodedAsWritten(r: Response)
    ensures r.BaseResponse? ==> DecodeResponse(BaseShape, Parsed(Encode(r))) == Success(r)
    ensures r.SceneListResponse? ==>
      DecodeResponse(SceneListShape, Parsed(Encode(r))) == Failure(EmbeddedPointerUnset("message-id"))
  {
    EncodeWrites(r);
    DecodeWrittenAsWritten(r, Encode(r).members);
  }
}

=== FILE: timecode.dfy ===
/**
  The `H:M:S.ms` timecodes carried by events (`parseTC` in
  obs/client/ws/events.go). Durations are whole milliseconds; the Go code
  returns -1 together with an error when a timecode cannot be read.
 */
module Timecode {
  import opened Wrappers
  import Decimal

  const MillisPerSecond: nat := 1000
  const MillisPerMinute: nat := 60 * MillisPerSecond
  const MillisPerHour: nat := 60 * MillisPerMinute

  datatype TimecodeError =
    | EmptyTimecode
    | InvalidTimecode(text: string)
  {
    /** The error text, up to the scanner's own explanation, which is not modelled. */
    function Message(): string {
      match this
      case EmptyTimecode => "obsws: invalid Timecode format '': empty string"
      case InvalidTimecode(text) => "obsws: invalid Timecode format '" + text + "'"
    }
  }

  /** Go's `(time.Duration, error)` result of `parseTC`. */
  datatype Parsed = Parsed(duration: int, err: Option<TimecodeError>)

  function Millis(h: nat, m: nat, s: nat, ms: nat): nat {
    h * MillisPerHour + m * MillisPerMinute + s * MillisPerSecond + ms
  }

  /** `tc` is the four numerals `h`, `m`, `s`, `ms` joined as `h:m:s.ms`. */
  predicate Shaped(tc: string, h: string, m: string, s: string, ms: string) {
    && Decimal.IsNumeral(h) && Decimal.IsNumeral(m)
    && Decimal.IsNumeral(s) && Decimal.IsNumeral(ms)
    && tc == h + [':'] + m + [':'] + s + ['.'] + ms
  }

  /** Splits `str` around its first `c`. */
  function Cut(str: string, c: char): (r: Option<(string, string)>)
    ensures r.Some? ==> str == r.value.0 + [c] + r.value.1
    ensures r.Some? ==> forall i :: 0 <= i < |r.value.0| ==> r.value.0[i] != c
    ensures r.None? ==> forall i :: 0 <= i < |str| ==> str[i] != c
  {
    if |str| == 0 then None
    else if str[0] == c then Some(([], str[1..]))
    else match Cut(str[1..], c)
      case None => None
      case Some((before, after)) => Some(([str[0]] + before, after))
  }

  /** Cuts `tc` at its first `:`, the next `:` and the next `.`. */
  function Fields(tc: string): (r: Option<(string, string, string, string)>)
    ensures r.Some? ==> tc == r.value.0 + [':'] + r.value.1 + [':'] + r.value.2 + ['.'] + r.value.3
  {
    match Cut(tc, ':')
    case None => None
    case Some((h, rest)) =>
      match Cut(rest, ':')
      case None => None
      case Some((m, tail)) =>
        match Cut(tail, '.')
        case None => None
        case Some((s, ms)) => Some((h, m, s, ms))
  }

  /** `parseTC`: the duration `h:m:s.ms` denotes, the millisecond field being
      a count and not a fraction; -1 and an error for anything else. */
  function ParseTC(tc: string): (r: Parsed)
    ensures r.err.Some? <==> r.duration == -1
    ensures |tc| == 0 ==> r.err == Some(EmptyTimecode)
    ensures |tc| > 0 && r.err.Some? ==> r.err == Some(InvalidTimecode(tc))
  {
    if |tc| == 0 then Parsed(-1, Some(EmptyTimecode))
    else match Fields(tc)
      case None => Parsed(-1, Some(InvalidTimecode(tc)))
      case Some((h, m, s, ms)) =>
        if Decimal.IsNumeral(h) && Decimal.IsNumeral(m) && Decimal.IsNumeral(s) && Decimal.IsNumeral(ms)
        then Parsed(Millis(Decimal.Value(h), Decimal.Value(m), Decimal.Value(s), Decimal.Value(ms)), None)
        else Parsed(-1, Some(InvalidTimecode(tc)))
  }

  /** Cutting at the first `c` finds the `c` right after a prefix free of `c`. */
  lemma {:induction false} CutAfterPrefix(a: string, c: char, rest: string)
    requires forall i :: 0 <= i < |a| ==> a[i] != c
    ensures Cut(a + [c] + rest, c) == Some((a, rest))
    decreases |a|
  {
    var str := a + [c] + rest;
    if |a| == 0 {
      assert str == [c] + rest;
      assert str[1..] == rest;
    } else {
      assert str[0] == a[0];
      assert str[1..] == a[1..] + [c] + rest;
      CutAfterPrefix(a[1..], c, rest);
      assert [a[0]] + a[1..] == a;
    }
  }

  lemma NumeralHasNo(s: string, c: char)
    requires Decimal.AllDigits(s) && !Decimal.IsDigit(c)
    ensures forall i :: 0 <= i < |s| ==> s[i] != c
  {
  }

  /** Every well-shaped timecode is read, field by field. */
  lemma ParseShaped(tc: string, h: string, m: string, s: string, ms: string)
    requires Shaped(tc, h, m, s, ms)
    ensures Fields(tc) == Some((h, m, s, ms))
    ensures ParseTC(tc) == Parsed(Millis(Decimal.Value(h), Decimal.Value(m), Decimal.Value(s), Decimal.Value(ms)), None)
  {
    NumeralHasNo(h, ':');
    NumeralHasNo(m, ':');
    NumeralHasNo(s, '.');
    var tail := s + ['.'] + ms;
    var rest := m + [':'] + tail;
    assert tc == h + [':'] + rest;
    CutAfterPrefix(h, ':', rest);
    CutAfterPrefix(m, ':', tail);
    CutAfterPrefix(s, '.', ms);
  }

  /** Whatever `parseTC` accepts is well shaped and denotes the duration it returns. */
  lemma ParseSound(tc: string)
    requires ParseTC(tc).err.None?
    ensures exists h, m, s, ms ::
      && Shaped(tc, h, m, s, ms)
      && ParseTC(tc).duration == Millis(Decimal.Value(h), Decimal.Value(m), Decimal.Value(s), Decimal.Value(ms))
  {
    var (h, m, s, ms) := Fields(tc).value;
    assert Shaped(tc, h, m, s, ms);
  }

  /** A timecode as a server writes it: `HH:MM:SS.mmm`. */
  function Format(d: nat): (tc: string)
    ensures |tc| >= 12
  {
    var ms := d % 1000;
    var secs := d / 1000;
    var s := secs % 60;
    var mins := secs / 60;
    Decimal.PadLeft(mins / 60, 2) + [':'] + Decimal.PadLeft(mins % 60, 2) + [':']
      + Decimal.PadLeft(s, 2) + ['.'] + Decimal.PadLeft(ms, 3)
  }

  lemma SplitMillis(d: nat)
    ensures Millis(d / 1000 / 60 / 60, d / 1000 / 60 % 60, d / 1000 % 60, d % 1000) == d
  {
    var secs := d / 1000;
    var mins := secs / 60;
    assert d == secs * 1000 + d % 1000;
    assert secs == mins * 60 + secs % 60;
    assert mins == (mins / 60) * 60 + mins % 60;
  }

  /** Formatting a duration and reading it back gives the same duration. */
  lemma ParseFormat(d: nat)
    ensures ParseTC(Format(d)) == Parsed(d, None)
  {
    var ms := d % 1000;
    var secs := d / 1000;
    var mins := secs / 60;
    ParseShaped(Format(d), Decimal.PadLeft(mins / 60, 2), Decimal.PadLeft(mins % 60, 2),
      Decimal.PadLeft(secs % 60, 2), Decimal.PadLeft(ms, 3));
    SplitMillis(d);
  }

  /** Reading one well-shaped example. */
  lemma ReadsExample(tc: string, h: string, m: string, s: string, ms: string, d: nat)
    requires Shaped(tc, h, m, s, ms)
    requires Millis(Decimal.Value(h), Decimal.Value(m), Decimal.Value(s), Decimal.Value(ms)) == d
    ensures ParseTC(tc) == Parsed(d, None)
  {
    ParseShaped(tc, h, m, s, ms);
  }

  /** One hour, as the package's own tests read it. */
  lemma ReadsOneHour()
    ensures ParseTC("01:00:00.000") == Parsed(MillisPerHour, None)
  {
    assert Decimal.Value("00") == 0 && Decimal.Value("01") == 1;
    assert "000"[..2] == "00";
    ReadsExample("01:00:00.000", "01", "00", "00", "000", MillisPerHour);
  }

  /** The millisecond field is a count: `.042` is 42 ms, not 420 ms. */
  lemma ReadsMillisecondCount()
    ensures ParseTC("00:00:00.042") == Parsed(42, None)
  {
    assert Decimal.Value("00") == 0;
    assert "042"[..2] == "04" && "04"[..1] == "0";
    ReadsExample("00:00:00.042", "00", "00", "00", "042", 42);
  }

  /** The malformed timecodes of the package's tests are refused with -1. */
  lemma RejectedTimecodes()
    ensures ParseTC("") == Parsed(-1, Some(EmptyTimecode))
    ensures ParseTC("0:0") == Parsed(-1, Some(InvalidTimecode("0:0")))
    ensures ParseTC("a") == Parsed(-1, Some(InvalidTimecode("a")))
  {
    assert "0:0" == "0" + [':'] + "0";
    CutAfterPrefix("0", ':', "0");
    assert Cut("0", ':') == None;
  }
}

=== FILE: wrappers.dfy ===
/** Failure-compatible result types shared by every module of the model. */
module Wrappers {

  /** A value that may be missing: Go's nil pointer, nil channel or absent key. */
  datatype Option<+T> = None | Some(value: T) {
    predicate IsFailure() {
      None?
    }

    function PropagateFailure<U>(): Option<U>
      requires None?
    {
      None
    }

    function Extract(): T
      requires Some?
    {
      value
    }
  }

  /** Go's `(value, error)` pair, where exactly one side is meaningful. */
  datatype Result<+R, +E> = Success(value: R) | Failure(error: E) {
    predicate IsFailure() {
      Failure?
    }

    function PropagateFailure<U>(): Result<U, E>
      requires Failure?
    {
      Failure(error)
    }

    function Extract(): R
      requires Success?
    {
      value
    }
  }
}
